=== FILE: README.md ===
# User store and password-reset pages, modelled in Dafny

This project models the client-side user store of a shop front end. The store keeps the signed-in
user, the cached profile, the loading, error and initialised flags, the preferences and a few
cached lists. The model also covers the two pages that drive the store's profile and
password-reset operations. The remote auth/database/storage service is not modelled. Each call
to it is recorded as a `Store.Call`, and the service's answer to that call is a parameter. Every
operation is therefore a pure function from the state and the answers to the new state, the
reply the page receives (`{ success, data | error }` as `Results.Result`), and the calls made,
in order.

Modules, following the source:

- `JsValues`, `Results` and `Text` hold the JavaScript value model: truthiness, `||`, property
  reads, `null`, and the string builtins the code uses. `Text` covers `split` on one character,
  `includes`, `startsWith`, `substring`/`slice`, ASCII `toLowerCase`, and the decimal rendering of
  a timestamp. Its `Find` (first occurrence of a character) and `Join` (the inverse of `Split`)
  are the definitions those are stated with. The code calls neither `indexOf` nor `join`.
- `FormUrlEncoded` is `URLSearchParams` construction and `get`, on a simplified
  application/x-www-form-urlencoded parser (section 5.1 of the WHATWG URL Standard): the input
  is split on '&', empty sequences are skipped, and each sequence is split at its first '='.
- `Profiles` covers the profile normaliser, the base row `loadProfile` creates for a user
  without one, the row `createUserProfile` builds, and the change set `updateProfile` writes.
- `Recovery` covers `parseRecoveryToken` and `hasRecoveryToken`.
- `Store` holds the state, `loadProfile`, `initialize`, `signOut`, `updateProfile`,
  `refreshProfile`, `isAdmin`, and the persisted snapshot.
- `Avatar` covers `uploadAvatar`: its ordered checks, the storage key, the cache-busting URL,
  and the transition around the upload.
- `PasswordReset` covers `updatePasswordWithToken`, `completePasswordReset`,
  `completeForgotPasswordReset` and `exchangeRecoveryToken`.
- `ResetPasswordPage` and `ProfilePage` cover the pages' token extraction, form validation,
  submit guard, form hydration, save payload and initialise-once effect.

Facts the proofs establish beyond single calls:
- Normalising is idempotent.
- The composed `type=recovery&...` fragment and the `<token>?type=recovery` fragment both parse
  back to their token.
- The profile page's save payload reaches the base row only as `name`. Phone, bio, date of
  birth and the newsletter flag are dropped by `updateProfile`'s allow-list.
- The reset page reads only `access_token`. A `<token>?type=recovery` fragment, which
  `parseRecoveryToken` accepts, gives that page no token.
- The four failure messages of `completeForgotPasswordReset` are pairwise distinct, whatever
  the service's messages are.

Behaviour the model keeps as the code has it:
- `initialize` does not skip when already initialised. The skip is the profile page's guard
  (`ProfilePage.InitializeOnce`).
- `loadProfile`, `refreshProfile` and `uploadAvatar` never set `isLoading`.
- A failed sign-out records the error message and keeps user, profile and lists.
- `refreshProfile` never sets the store's error.

## Model

| member | source | states |
|---|---|---|
| Text.Find | frontend/src/store/auth.js:666 | the index of the first occurrence of the character, `|s|` exactly when it does not occur, and no earlier occurrence |
| Text.Split | frontend/src/store/auth.js:666 | `split` on one character gives at least one piece, and no piece holds the separator |
| Text.JoinSplit | frontend/src/store/auth.js:818 | joining the pieces of a split restores the string |
| Text.SplitJoin | frontend/src/store/auth.js:505 | splitting a join of separator-free pieces restores the pieces |
| Text.IncludesIffOccurs | frontend/src/store/auth.js:665 | `includes` holds exactly when the pattern occurs at some index |
| Text.DecimalRoundTrip | frontend/src/store/auth.js:844 | the decimal rendering of a timestamp reads back as the same number |
| Text.DecimalInjective | frontend/src/store/auth.js:844 | distinct timestamps render as distinct strings |
| FormUrlEncoded.ParseParam | frontend/src/store/auth.js:675 | a sequence splits at its first '=': the name holds no '=', and without '=' the whole sequence is the name with an empty value |
| FormUrlEncoded.ParseQuery | frontend/src/store/auth.js:675 | no parsed name or value holds a '&' and no name holds a '='; the empty input and a bare "?" give no parameters |
| FormUrlEncoded.GetParam | frontend/src/store/auth.js:676 | `get` is null exactly when no parameter has the name, else the value of the first one with that name |
| FormUrlEncoded.ComposeParseRoundTrip | frontend/src/store/auth.js:675 | a query written from plain parameters (no '&' or '=' in a name, no '&' in a value, no '+' or '%' anywhere) parses back to the same parameters |
| Profiles.NormalizeProfile | frontend/src/store/auth.js:33-40 | null stays null; otherwise the keys are the row's plus `full_name` and `avatar_url`, every other property is kept, `full_name` is the first truthy of `full_name`/`name` else "", and `avatar_url` is the first truthy of `avatar_url`/`avatar` else null |
| Profiles.NormalizeIdempotent | frontend/src/store/auth.js:33-40 | normalising twice equals normalising once |
| Profiles.FallbackName | frontend/src/store/auth.js:81-85 | the fallback name is always truthy: metadata `name`, else metadata `full_name`, else email, else "Unknown User" |
| Profiles.FallbackUserId | frontend/src/store/auth.js:86 | the display id starts with "user_", followed by the first (at most eight) characters of the id |
| Profiles.FallbackRow | frontend/src/store/auth.js:89-99 | the upserted row has exactly the keys id, user_id, name and avatar; id is the user id; user_id is truthy (metadata id or the fallback); avatar follows `avatar` then `avatar_url` then null |
| Profiles.FallbackRowNormalizes | frontend/src/store/auth.js:81-123 | the created row normalises to a profile whose `full_name` is the truthy fallback name and whose `avatar_url` is the row's avatar |
| Profiles.CreateProfileRow | frontend/src/store/auth.js:163-179 | the row `createUserProfile` builds (no modelled code calls it) has exactly id, user_id, name, interests and avatar; the name is the first truthy of metadata `name`, metadata `full_name`, the caller's `fullName` and the email, else ""; user_id is the metadata id when truthy, else "user_" and the first eight characters of the id; avatar follows `avatar` then `avatar_url` then null; interests is the caller's truthy value or null |
| Profiles.CreateRowAgreesWithFallbackRow | frontend/src/store/auth.js:81-99 | without a caller-supplied name, the `createUserProfile` row and the `loadProfile` row agree on id, display id and avatar, and on the name except "" versus "Unknown User" |
| Profiles.UpdatePayload | frontend/src/store/auth.js:358-379 | the keys are exactly the allowed columns whose mapped value is defined, plus `updated_at`; a present `full_name`/`avatar_url` wins over `name`/`avatar`; `updated_at` is the given timestamp |
| Recovery.TokenParam | frontend/src/store/auth.js:676-680 | a non-empty `access_token` wins; otherwise a non-empty `token`; never the empty string |
| Recovery.ParseRecoveryToken | frontend/src/store/auth.js:656-687 | null without a window or with an empty fragment (the hash without its first character, `Fragment`); with `?type=recovery` the text before the first '?'; otherwise, with `type=recovery`, the token parameter; any result implies the fragment mentions `type=recovery` |
| Recovery.HasRecoveryToken | frontend/src/store/auth.js:689-694 | true exactly when the parsed token is present and non-empty |
| Recovery.RecoveryFragmentRoundTrip | frontend/src/store/auth.js:664-669 | `#<token>?type=recovery` yields the token for every token without '?', the empty one included |
| Recovery.AccessTokenFragment | frontend/src/store/auth.js:671-680 | `#type=recovery&...` yields the first `access_token` when it is non-empty |
| Store.LoadProfile | frontend/src/store/auth.js:61-130 | only profile and error change; the id is the override when non-empty, else the cached user's id (`LoadTarget`), and no id means no call; a view row is normalised and cached; otherwise the user is read and the fallback row upserted; an upsert error fails with its message after three calls; a row on the second view read succeeds with it after four calls; otherwise the base table is read, and its error fails with its message while its row, or null for no row (`RowOrNull`), succeeds; a null profile results only when every read found nothing |
| Store.Initialize | frontend/src/store/auth.js:133-156 | always ends initialised and not loading; a session error is recorded and changes nothing else; without a session user the error ends null; a session user is cached and its profile loaded, the calls, profile and error being those of `loadProfile` on the user's id; lists and preferences are kept; the profile invariant is preserved |
| Store.SignOut | frontend/src/store/auth.js:314-342 | success clears user, profile and the three lists and keeps preferences; failure records the service's message, or "Failed to sign out" when that is empty (`MessageOr`), and changes nothing else; never loading afterwards |
| Store.UpdateProfile | frontend/src/store/auth.js:345-412 | without a user it fails with "User not authenticated" before any call; with an accepted write and a view row it succeeds with the normalised row after exactly the write and the view read, and caches it; a refused write fails after the write alone, a refused view read after both calls, each with the service's message or "Failed to update profile" when that is empty; failure keeps the profile and records the message |
| Store.RefreshProfile | frontend/src/store/auth.js:415-449 | without a user it fails with no call; a view row, or no row (null), is cached normalised after the view read alone; a view error falls back to the base table, whose row or null (`RowOrNull`) is cached and whose error is returned; only the profile changes |
| Store.IsAdmin | frontend/src/store/auth.js:452-455 | truthy exactly when a profile exists with a truthy `is_admin`, and then it is that stored value; otherwise `false` |
| Store.SignOutSnapshot | frontend/src/store/auth.js:887-894 | after a successful sign-out the persisted snapshot holds only the preferences |
| Store.SnapshotKeeps | frontend/src/store/auth.js:888-894 | two states persist alike exactly when they agree on user, profile, preferences and recently viewed items |
| Store.InitialStateFacts | frontend/src/store/auth.js:21-50 | the initial state is uninitialised, has the default preferences and satisfies the profile invariant |
| Store.ClearError | frontend/src/store/auth.js:58 | the error becomes null and nothing else changes |
| Avatar.AvatarCheck | frontend/src/store/auth.js:800-815 | the file passes exactly when there is a user, the type starts with "image/" and the size is at most 5 MiB; the first failing check names the error |
| Avatar.SizeBoundary | frontend/src/store/auth.js:813 | exactly 5 MiB passes, one byte more is refused |
| Avatar.RawExtension | frontend/src/store/auth.js:818 | the result is a suffix of the name without '.', preceded by a '.' when the name has one, and the whole name otherwise |
| Avatar.AvatarExtension | frontend/src/store/auth.js:818 | the extension is the raw one with each ASCII capital made small, so it holds no capital and no '.' |
| Avatar.AvatarKey | frontend/src/store/auth.js:819 | the key is the user id, a '.', then the lower-cased extension, which holds no '.'; so the key's last '.' ends the id and both parts read back from the key alone (for ids without '.' it is also the first '.') |
| Avatar.AvatarKeysDistinct | frontend/src/store/auth.js:818-819 | two different users never share a storage key, whatever their file names |
| Avatar.CacheBustedUrl | frontend/src/store/auth.js:844 | the URL is the public URL, then "?t=", then digits without leading zeros that read back as the timestamp |
| Avatar.CacheBustedUrlsDistinct | frontend/src/store/auth.js:844 | distinct timestamps give distinct URLs |
| Avatar.AvatarChangesAsUpdatePayload | frontend/src/store/auth.js:851-854 | the upload writes the same change set that `updateProfile({avatar_url: url})` would |
| Avatar.AvatarChanges | frontend/src/store/auth.js:849-855 | the upload writes exactly `avatar` (the cache-busted URL) and `updated_at` |
| Avatar.UploadAvatar | frontend/src/store/auth.js:797-884 | a failed check records its message and makes no call; a passing file with accepted upload and write and a view row succeeds with the cache-busted URL and caches the normalised row after exactly the upload, public URL, write and read calls; a refused upload fails after the upload alone, a refused write after upload, public URL and write, and a refused view read after all four, each with the service's own message; failure changes only the error; `isLoading` never changes |
| PasswordReset.ClosingCalls | frontend/src/store/auth.js:583-600 | after a password change, the view is stamped only when a user came back, and sign-out is always last |
| PasswordReset.PasswordStamp | frontend/src/store/auth.js:587-590 | the stamp writes exactly `password_changed_at` and `updated_at`, each from its own clock reading |
| PasswordReset.UpdatePasswordWithToken | frontend/src/store/auth.js:556-621 | no session fails with its message after one call; a refused change fails with the service's message or "Failed to update password" after exactly the session read and the change; success happens exactly with a session and an accepted change, and then clears user and profile whatever the stamp and sign-out answers; a failure changes only the error |
| PasswordReset.CompletePasswordReset | frontend/src/store/auth.js:623-653 | a refused token fails with "Invalid or expired reset token" after one call; otherwise the reply and state are those of `updatePasswordWithToken` |
| PasswordReset.ForgotFailuresDistinct | frontend/src/store/auth.js:708-740 | the four failure messages of the forgot-password flow are pairwise distinct for any service messages |
| PasswordReset.ForgotFailureMessages | frontend/src/store/auth.js:709-739 | no failure message is empty; the service's message quoted after "Invalid or expired recovery token: " or "Failed to update password: " reads back from the message; the two unquoted messages start with neither prefix |
| PasswordReset.CompleteForgotPasswordReset | frontend/src/store/auth.js:697-795 | no token fails with no call; a refused verification, or one without a session, fails with its own message after the verification alone; a refused change fails with its own message after the verification and the change; success happens exactly when every stage passes, and then clears user, profile and fragment; failures keep user, profile and fragment |
| PasswordReset.ForgotResetNotRepeatable | frontend/src/store/auth.js:776-778 | after a successful run the fragment is gone, so a second run fails at once without calls |
| PasswordReset.FragmentToken | frontend/src/store/auth.js:504-505 | the token is the text before the first '?' and contains no '?' |
| PasswordReset.FragmentType | frontend/src/store/auth.js:504-512 | `type` of the query between the first '?' and the next one; none when the fragment has no '?' |
| PasswordReset.ExchangeRecoveryToken | frontend/src/store/auth.js:488-554 | an existing session is returned; an empty token fails with "No recovery token found" and a query without `type=recovery` with "Invalid recovery type"; otherwise a session is set from the fragment's token; an accepted set succeeds with its session; a refused one is followed by a refresh and a session read, and succeeds exactly when that read finds a session, else fails with "Failed to establish recovery session" |
| PasswordReset.ExchangeAgreesWithParse | frontend/src/store/auth.js:504-524 | on `#<token>?type=recovery` the session is set from the same token `parseRecoveryToken` returns |
| ResetPasswordPage.ExtractToken | frontend/src/app/login/reset-password/page.js:28-43 | a non-empty `access_token` is kept; otherwise the errors become just the general missing-token message; extraction ends and the store's error is cleared either way |
| ResetPasswordPage.AccessTokenOf | frontend/src/app/login/reset-password/page.js:29-31 | the token is present exactly when some fragment parameter is named `access_token`, and is then the value of the first such parameter |
| ResetPasswordPage.ExtractsComposedAccessToken | frontend/src/app/login/reset-password/page.js:29-34 | a fragment composed of plain parameters hands the page its first non-empty `access_token` |
| ResetPasswordPage.MarkerShapeHasNoAccessToken | frontend/src/app/login/reset-password/page.js:29-31 | the `<token>?type=recovery` fragment that `parseRecoveryToken` accepts gives the page no token |
| ResetPasswordPage.ValidateForm | frontend/src/app/login/reset-password/page.js:54-71 | each field has an error exactly when it fails its check, with the message for empty versus short or mismatched; no errors exactly when the password has six or more characters and is confirmed |
| ResetPasswordPage.HandleInputChange | frontend/src/app/login/reset-password/page.js:45-52 | the field takes the value, the other field is kept, the field's error is blanked, every other error entry is kept, the token and the extraction and success flags are kept, and the store's error is cleared |
| ResetPasswordPage.HandleSubmit | frontend/src/app/login/reset-password/page.js:73-93 | the service is called exactly when the form is valid and a token is present; a valid form without a token sets the general error; form, token and extraction flag are kept; success shows exactly when the password change succeeded |
| ResetPasswordPage.SubmitNeedsTokenFromFragment | frontend/src/app/login/reset-password/page.js:28-93 | from a fresh page, typing and confirming a valid password and submitting calls the service exactly when the mount found a non-empty `access_token` |
| ProfilePage.InitializeOnce | frontend/src/app/profile/page.js:31-35 | the store ends initialised; an initialised store is left as it is, with no call; otherwise the effect is exactly the store's `initialize` |
| ProfilePage.InitializeOnceIdempotent | frontend/src/app/profile/page.js:31-35 | running the effect a second time changes nothing and calls nothing |
| ProfilePage.FormFromProfile | frontend/src/app/profile/page.js:38-45 | text fields are the profile value when truthy, else ""; the date is the first ten characters or ""; the newsletter flag is coerced to a boolean; a truthy non-string date throws |
| ProfilePage.HydrateForm | frontend/src/app/profile/page.js:37-47 | without a profile the form is kept; with one it is replaced by the profile's mapping |
| ProfilePage.HydratedDateIsPrefix | frontend/src/app/profile/page.js:43 | the hydrated date is a prefix of the stored one and at most ten characters long |
| ProfilePage.SavePayload | frontend/src/app/profile/page.js:66-72 | exactly five keys; an empty date is sent as null; the flag is a boolean |
| ProfilePage.SaveReachesOnlyName | frontend/src/app/profile/page.js:66-72 | after `updateProfile`'s filter only `name` (the form's full name) and `updated_at` are written |
| ProfilePage.HydrateSaveKeepsName | frontend/src/app/profile/page.js:37-72 | a form filled from a normalised profile and saved unchanged writes the profile's `full_name` back as `name` |
| ProfilePage.HandleSave | frontend/src/app/profile/page.js:64-78 | the run is the store's `updateProfile` on the save payload; the banner shows exactly when that run succeeds, which is exactly with a user, an accepted write and a view row |
| ProfilePage.HandleAvatarChange | frontend/src/app/profile/page.js:55-62 | without a file nothing happens; a failed upload ends the change with the upload's state and calls; a successful one is followed by `refreshProfile` on the upload's state, whose state and calls end the change; the user and loading flag never change |

## Left out

- The service itself (auth, tables, view, storage) is represented only by the answers passed in. A rejected promise (a transport failure) is not modelled. Only the answers the code inspects are.
- `initializeSupabase` failing (a missing client module) is left out. The client is assumed to load.
- `signUp`, `signIn`, `signInWithOAuth` and `requestPasswordReset` are only network forwarding, and are left out. After a successful `signUp` or `signIn` the code calls `loadProfile`, which is modelled (`Store.LoadProfile`, whose upserted row is `Profiles.FallbackRow`). `createUserProfile` has no caller in the code modelled here. Only the row it builds is modelled (`Profiles.CreateProfileRow`), not its upsert and read-back.
- The trivial setters (`setUser`, `setProfile`, `setLoading`, `setInitialized`, `setError`) are left out. Only `clearError` is modelled, as `Store.ClearError`.
- Persistence and rehydration by the state library are left out. Only the persisted key set is recorded (`Store.Snapshot`).
- `console` logging, `setTimeout` redirects and banners, and rendering are left out. `window.history.replaceState` is modelled as the fragment becoming empty.
- `Date.now()` and `toISOString()` are parameters (`millis`, `iso`). The two readings of the password stamp are separate parameters (`PasswordReset.StampReadings`), since the code reads the clock twice.
- Interleaving of concurrent asynchronous operations is not modelled. Each operation runs to completion.
- Percent-decoding and '+'-to-space in form-urlencoded parsing are left out. The parser returns raw text, which agrees with `URLSearchParams` only on text holding no '+' or '%'. That is why `FormUrlEncoded.Plain` excludes both characters. A fragment whose token holds either would be read differently.
- String lengths count characters, not UTF-16 code units, and `toLowerCase` maps only ASCII letters.
- Numbers are integers. The JavaScript numbers that reach the model are sizes and timestamps.
- `JsValues.Value` has no array or object variant. So `interests` (which `createUserProfile` and `updateProfile` copy) cannot hold an array, and a truthy empty array has no counterpart. In the model `interests` is a primitive value.
- The auth event listener, the client construction, the navigation bar, the footer and the home page lie outside this model.
- The profile page's `handleChange` and the reset page's show-password toggles only assign one field, so they are not modelled.
- ParseRecoveryToken: when the `URLSearchParams` branch throws, the source catches it and returns null. The simplified parser never throws, so that path is absent.
- CompleteForgotPasswordReset: the fallback message "Failed to complete password reset" is not modelled. Every thrown message in the flow is non-empty (`PasswordReset.ForgotFailureMessages`), so it cannot appear.

=== FILE: avatar.dfy ===
/** `uploadAvatar`: the ordered file checks, the storage key `<user id>.<extension>`, the
    cache-busting public URL, and the store transition around the upload. */
module Avatar {
  import opened Results
  import opened JsValues
  import opened Text
  import opened Profiles
  import opened Store

  /** The largest accepted avatar, in bytes: 5 MiB. */
  const MaxAvatarBytes: nat := 5 * 1024 * 1024

  const ImagePrefix: string := "image/"
  const NotAnImage := "Please upload an image file"
  const TooLarge := "Image must be less than 5MB"

  /** The file the page hands over: its name, MIME type and size in bytes. */
  datatype AvatarFile = AvatarFile(name: string, mimeType: string, size: nat)

  /** The checks made before any upload, in order: a signed-in user, an image MIME type, and a
      size of at most 5 MiB. The first failing check names the error. */
  function AvatarCheck(user: Option<AuthUser>, file: AvatarFile): (r: Option<string>)
    ensures r.None? <==> user.Some? && StartsWith(file.mimeType, ImagePrefix) && file.size <= MaxAvatarBytes
    ensures user.None? ==> r == Some(NotAuthenticated)
    ensures user.Some? && !StartsWith(file.mimeType, ImagePrefix) ==> r == Some(NotAnImage)
    ensures user.Some? && StartsWith(file.mimeType, ImagePrefix) && file.size > MaxAvatarBytes ==> r == Some(TooLarge)
  {
    if user.None? then Some(NotAuthenticated)
    else if !StartsWith(file.mimeType, ImagePrefix) then Some(NotAnImage)
    else if file.size > MaxAvatarBytes then Some(TooLarge)
    else None
  }

  /** An image of exactly 5 MiB passes the checks; one byte more is refused. */
  lemma SizeBoundary(u: AuthUser, name: string, mimeType: string)
    requires StartsWith(mimeType, ImagePrefix)
    ensures AvatarCheck(Some(u), AvatarFile(name, mimeType, 5242880)).None?
    ensures AvatarCheck(Some(u), AvatarFile(name, mimeType, 5242881)) == Some(TooLarge)
  {
  }

  /** `name.split('.').pop()`: the text after the last '.', or the whole name without one. */
  function RawExtension(name: string): (ext: string)
    ensures '.' !in ext
    ensures |ext| <= |name| && name[|name| - |ext|..] == ext
    ensures '.' !in name ==> ext == name
    ensures '.' in name ==> |ext| < |name| && name[|name| - |ext| - 1] == '.'
  {
    SplitLast(name, '.');
    Split(name, '.')[|Split(name, '.')| - 1]
  }

  /** Lower-casing neither adds nor removes a '.'. */
  lemma LowerKeepsDots(s: string)
    ensures '.' in Lower(s) <==> '.' in s
  {
    if '.' in s {
      var i :| 0 <= i < |s| && s[i] == '.';
      assert Lower(s)[i] == '.';
    }
    if '.' in Lower(s) {
      var i :| 0 <= i < |Lower(s)| && Lower(s)[i] == '.';
      assert s[i] == '.';
    }
  }

  /** The lower-cased extension of the file name: the raw extension with every ASCII capital
      replaced by its small letter, so no capital is left. */
  function AvatarExtension(name: string): (ext: string)
    ensures '.' !in ext
    ensures |ext| == |RawExtension(name)|
    ensures forall i | 0 <= i < |ext| :: ext[i] == LowerChar(RawExtension(name)[i])
    ensures forall i | 0 <= i < |ext| :: !('A' <= ext[i] <= 'Z')
  {
    LowerKeepsDots(RawExtension(name));
    Lower(RawExtension(name))
  }

  /** The storage key `<user id>.<extension>`. The extension holds no '.', so the key's last '.'
      ends the id, and the id and the extension can be read back from the key alone; for ids
      without '.' it is also the key's first '.'. */
  function AvatarKey(userId: string, fileName: string): (key: string)
    ensures |key| == |userId| + 1 + |AvatarExtension(fileName)|
    ensures key[..|userId|] == userId && key[|userId|] == '.'
    ensures key[|userId| + 1..] == AvatarExtension(fileName) && '.' !in key[|userId| + 1..]
    ensures '.' !in userId ==> Find(key, '.') == |userId|
  {
    var ext := AvatarExtension(fileName);
    if '.' in userId then
      assert (userId + "." + ext)[..|userId|] == userId;
      assert (userId + "." + ext)[|userId| + 1..] == ext;
      userId + "." + ext
    else
      FindAfter(userId, '.', ext);
      userId + "." + ext
  }

  /** Two different users never share a storage key, whatever the file names: the key's last '.'
      ends the id. */
  lemma AvatarKeysDistinct(id1: string, id2: string, name1: string, name2: string)
    requires id1 != id2
    ensures AvatarKey(id1, name1) != AvatarKey(id2, name2)
  {
  }

  const CacheParam: string := "?t="

  /** `${publicUrl}?t=${Date.now()}`, with the clock reading `millis` as a parameter. The stamp is
      the number's decimal digits, without leading zeros. */
  function CacheBustedUrl(publicUrl: string, millis: nat): (url: string)
    ensures StartsWith(url, publicUrl + CacheParam)
    ensures var stamp := url[|publicUrl| + |CacheParam|..];
      && (forall i | 0 <= i < |stamp| :: IsDigit(stamp[i])) && DecimalValue(stamp) == millis
      && |stamp| >= 1 && (|stamp| == 1 || stamp[0] != '0')
  {
    var url := publicUrl + CacheParam + Decimal(millis);
    assert url[|publicUrl| + |CacheParam|..] == Decimal(millis);
    assert url[..|publicUrl + CacheParam|] == publicUrl + CacheParam;
    DecimalRoundTrip(millis);
    url
  }

  /** Uploads at distinct clock readings give distinct URLs for the same object. */
  lemma CacheBustedUrlsDistinct(publicUrl: string, m1: nat, m2: nat)
    requires m1 != m2
    ensures CacheBustedUrl(publicUrl, m1) != CacheBustedUrl(publicUrl, m2)
  {
  }

  /** The change set written to the base row after an upload. */
  function AvatarChanges(url: string, iso: string): (changes: Obj)
    ensures changes.Keys == {"avatar", "updated_at"}
    ensures changes["avatar"] == Str(url) && changes["updated_at"] == Str(iso)
  {
    map["avatar" := Str(url), "updated_at" := Str(iso)]
  }

  /** The upload writes the same change set that `updateProfile({avatar_url: url})` builds. */
  lemma AvatarChangesAsUpdatePayload(url: string, iso: string)
    ensures AvatarChanges(url, iso) == UpdatePayload(map["avatar_url" := Str(url)], iso)
  {
    var p := UpdatePayload(map["avatar_url" := Str(url)], iso);
    assert PayloadSource(map["avatar_url" := Str(url)], "avatar") == Str(url);
    assert p.Keys == {"avatar", "updated_at"};
  }

  /** The answers the upload may receive: the storage upload, the public URL of the object, the
      write of the base row, and the read of the profile view. */
  datatype UploadAnswers = UploadAnswers(upload: Status, publicUrl: string, write: Status, view: SingleRead)

  /** `uploadAvatar(file)`: check the file, upload it under its key, write the cache-busted URL
      to the base row, read the profile view back and cache it. Any failure records the
      service's message; `isLoading` is never touched and success leaves the error as it was. */
  function UploadAvatar(s: StoreState, file: AvatarFile, millis: nat, iso: string, a: UploadAnswers): (run: Run<string>)
    ensures OnlyProfileOrError(s, run.state)
    ensures AvatarCheck(s.user, file).Some? ==>
      run == Run(s.(error := AvatarCheck(s.user, file)), Failure(AvatarCheck(s.user, file).value), [])
    ensures AvatarCheck(s.user, file).None? ==>
      |run.calls| >= 1 && run.calls[0] == UploadObject(AvatarKey(s.user.value.id, file.name))
    ensures run.reply.Success? ==>
      && s.user.Some?
      && run.reply.value == CacheBustedUrl(a.publicUrl, millis)
      && a.view.Success?
      && run.state == s.(profile := NormalizeProfile(Some(a.view.value)))
      && var id, key := s.user.value.id, AvatarKey(s.user.value.id, file.name);
         run.calls == [UploadObject(key), PublicUrl(key), UpdateBase(id, AvatarChanges(run.reply.value, iso)), ReadView(id)]
    ensures run.reply.Failure? ==> run.state == s.(error := Some(run.reply.error))
    ensures AvatarCheck(s.user, file).None? && a.upload.Ok? && a.write.Ok? && a.view.Success? ==>
      run.reply == Success(CacheBustedUrl(a.publicUrl, millis))
    ensures AvatarCheck(s.user, file).None? && a.upload.Err? ==>
      run.reply == Failure(a.upload.err.message) && run.calls == [UploadObject(AvatarKey(s.user.value.id, file.name))]
    ensures AvatarCheck(s.user, file).None? && a.upload.Ok? && !(a.write.Ok? && a.view.Success?) ==>
      var id, key := s.user.value.id, AvatarKey(s.user.value.id, file.name);
      var written := [UploadObject(key), PublicUrl(key), UpdateBase(id, AvatarChanges(CacheBustedUrl(a.publicUrl, millis), iso))];
      && (a.write.Err? ==> run.reply == Failure(a.write.err.message) && run.calls == written)
      && (a.write.Ok? ==> run.reply == Failure(a.view.error.message) && run.calls == written + [ReadView(id)])
    ensures ProfileNeedsUser(s) ==> ProfileNeedsUser(run.state)
  {
    var check := AvatarCheck(s.user, file);
    if check.Some? then Run(s.(error := check), Failure(check.value), [])
    else
      var id := s.user.value.id;
      var key := AvatarKey(id, file.name);
      if a.upload.Err? then
        Run(s.(error := Some(a.upload.err.message)), Failure(a.upload.err.message), [UploadObject(key)])
      else
        var url := CacheBustedUrl(a.publicUrl, millis);
        var written := [UploadObject(key), PublicUrl(key), UpdateBase(id, AvatarChanges(url, iso))];
        if a.write.Err? then
          Run(s.(error := Some(a.write.err.message)), Failure(a.write.err.message), written)
        else
          match a.view
          case Failure(err) => Run(s.(error := Some(err.message)), Failure(err.message), written + [ReadView(id)])
          case Success(row) => Run(s.(profile := NormalizeProfile(Some(row))), Success(url), written + [ReadView(id)])
  }
}

=== FILE: form_urlencoded.dfy ===
/** `new URLSearchParams(string)` and `params.get(name)`, built on a simplified
    application/x-www-form-urlencoded parser (section 5.1 of the WHATWG URL Standard): the input
    is split on '&', empty sequences are skipped, and each sequence is split at its first '='.
    Percent-decoding and the '+'-to-space replacement are not modelled. */
module FormUrlEncoded {
  import opened Results
  import opened Text

  /** One name-value pair of a parsed query. */
  datatype Param = Param(name: string, value: string)

  /** A non-empty `name=value` sequence, split at its first '='; without '=' the value is empty. */
  function ParseParam(bytes: string): (p: Param)
    ensures '=' !in p.name
    ensures '=' !in bytes ==> p == Param(bytes, "")
  {
    var i := Find(bytes, '=');
    if i == |bytes| then Param(bytes, "")
    else
      assert '=' !in bytes[..i] by {
        forall j | 0 <= j < i ensures bytes[..i][j] != '=' { }
      }
      Param(bytes[..i], bytes[i + 1..])
  }

  /** The parameters of the '&'-separated sequences, skipping the empty ones. */
  function ParseSequences(sequences: seq<string>): seq<Param>
    decreases |sequences|
  {
    if |sequences| == 0 then []
    else if sequences[0] == "" then ParseSequences(sequences[1..])
    else [ParseParam(sequences[0])] + ParseSequences(sequences[1..])
  }

  /** No name or value holds a '&', and no name holds a '='. */
  predicate Separated(params: seq<Param>) {
    forall k | 0 <= k < |params| :: '&' !in params[k].name && '&' !in params[k].value && '=' !in params[k].name
  }

  /** `new URLSearchParams(input)`: one leading '?' is dropped, then the rest is parsed. No name
      or value holds a '&', and no name holds a '='. */
  function ParseQuery(input: string): (params: seq<Param>)
    ensures Separated(params)
    ensures input == "" || input == "?" ==> params == []
  {
    var body := if |input| > 0 && input[0] == '?' then input[1..] else input;
    var sequences := Split(body, '&');
    ParseSequencesClean(sequences);
    if body == "" then
      assert sequences == [""];
      assert ParseSequences(sequences) == ParseSequences([]);
      ParseSequences(sequences)
    else
      ParseSequences(sequences)
  }

  /** The parameters of sequences without '&' hold no '&', and their names no '='. */
  lemma {:induction false} ParseSequencesClean(sequences: seq<string>)
    requires forall i | 0 <= i < |sequences| :: '&' !in sequences[i]
    ensures Separated(ParseSequences(sequences))
    decreases |sequences|
  {
    if |sequences| > 0 {
      var rest := ParseSequences(sequences[1..]);
      ParseSequencesClean(sequences[1..]);
      if sequences[0] != "" {
        ParamWithout(sequences[0], '&');
        var all := ParseSequences(sequences);
        assert all == [ParseParam(sequences[0])] + rest;
        forall k | 0 <= k < |all|
          ensures '&' !in all[k].name && '&' !in all[k].value && '=' !in all[k].name
        {
          if k > 0 {
            assert all[k] == rest[k - 1];
          }
        }
      } else {
        assert ParseSequences(sequences) == rest;
      }
    }
  }

  /** A character absent from a sequence is absent from its name and value. */
  lemma ParamWithout(bytes: string, c: char)
    requires c !in bytes
    ensures c !in ParseParam(bytes).name && c !in ParseParam(bytes).value
  {
    var i := Find(bytes, '=');
    if i < |bytes| {
      var name, value := bytes[..i], bytes[i + 1..];
      forall j | 0 <= j < |name| ensures name[j] != c {
        assert name[j] == bytes[j];
      }
      forall j | 0 <= j < |value| ensures value[j] != c {
        assert value[j] == bytes[i + 1 + j];
      }
    }
  }

  /** Index `i` holds the first parameter called `name`. */
  ghost predicate FirstNamed(params: seq<Param>, name: string, i: int) {
    0 <= i < |params| && params[i].name == name && forall j | 0 <= j < i :: params[j].name != name
  }

  /** `params.get(name)`: the value of the first parameter called `name`, or null. */
  function GetParam(params: seq<Param>, name: string): (r: Option<string>)
    ensures r.None? <==> forall j | 0 <= j < |params| :: params[j].name != name
    ensures forall i | FirstNamed(params, name, i) :: r == Some(params[i].value)
    decreases |params|
  {
    if |params| == 0 then None
    else if params[0].name == name then Some(params[0].value)
    else
      assert forall i | FirstNamed(params, name, i) :: FirstNamed(params[1..], name, i - 1);
      GetParam(params[1..], name)
  }

  /** A non-empty query without '&' or a leading '?' is one parameter: the whole input split at
      its first '=', or, without '=', named by the input with an empty value. */
  lemma SingleSequenceQuery(input: string)
    requires input != "" && input[0] != '?' && '&' !in input
    ensures ParseQuery(input) == [ParseParam(input)]
  {
    assert Find(input, '&') == |input|;
    assert Split(input, '&') == [input];
    assert ParseSequences([input]) == [ParseParam(input)] + ParseSequences([]);
  }

  /** A parameter written as `name=value`. */
  function Encode(p: Param): string {
    p.name + "=" + p.value
  }

  function Encodings(params: seq<Param>): (e: seq<string>)
    ensures |e| == |params|
    ensures forall i | 0 <= i < |params| :: e[i] == Encode(params[i])
    decreases |params|
  {
    if |params| == 0 then [] else [Encode(params[0])] + Encodings(params[1..])
  }

  /** The parameters written as `n1=v1&n2=v2&...`, without percent-encoding. */
  function Compose(params: seq<Param>): string {
    if |params| == 0 then "" else Join(Encodings(params), '&')
  }

  /** A parameter the simplified parser reads back unchanged from its encoding, and that holds
      no '+' or '%', so percent-decoding and '+'-to-space would leave it unchanged as well. */
  predicate Plain(p: Param) {
    && '&' !in p.name && '=' !in p.name && '&' !in p.value
    && '+' !in p.name && '%' !in p.name && '+' !in p.value && '%' !in p.value
  }

  /** A composed query does not start with '?' (which the constructor would drop). */
  predicate NoLeadingQuestionMark(params: seq<Param>) {
    |params| == 0 || |params[0].name| == 0 || params[0].name[0] != '?'
  }

  lemma ParseEncode(p: Param)
    requires '=' !in p.name
    ensures ParseParam(Encode(p)) == p
  {
    var s := Encode(p);
    assert s[|p.name|] == '=';
    forall j | 0 <= j < |p.name| ensures s[j] != '=' {
      assert s[j] == p.name[j];
    }
    assert Find(s, '=') == |p.name|;
    assert s[..|p.name|] == p.name;
    assert s[|p.name| + 1..] == p.value;
  }

  lemma {:induction false} ParseEncodings(params: seq<Param>)
    requires forall i | 0 <= i < |params| :: Plain(params[i])
    ensures ParseSequences(Encodings(params)) == params
    decreases |params|
  {
    if |params| > 0 {
      ParseEncode(params[0]);
      assert Encodings(params)[1..] == Encodings(params[1..]);
      ParseEncodings(params[1..]);
    }
  }

  /** Parsing a composed query of plain parameters gives back the parameters. */
  lemma ComposeParseRoundTrip(params: seq<Param>)
    requires forall i | 0 <= i < |params| :: Plain(params[i])
    requires NoLeadingQuestionMark(params)
    ensures ParseQuery(Compose(params)) == params
  {
    if |params| == 0 {
      assert Split("", '&') == [""];
      assert [""][1..] == [];
      assert ParseSequences([""]) == ParseSequences([]);
    } else {
      var e := Encodings(params);
      forall i | 0 <= i < |e| ensures '&' !in e[i] {
        assert e[i] == params[i].name + "=" + params[i].value;
      }
      var s := Compose(params);
      assert s[0] != '?' by {
        assert Join(e, '&')[0] == e[0][0];
      }
      SplitJoin(e, '&');
      ParseEncodings(params);
    }
  }
}

=== FILE: js_values.dfy ===
/** The part of JavaScript's value model the user store relies on: rows and metadata bags are
    plain objects holding primitive values, and defaults are picked with `||`. */
module JsValues {

  /** A primitive JavaScript value. Numbers are integers here. */
  datatype Value = Undefined | Null | Bool(b: bool) | Num(n: int) | Str(s: string)

  /** A plain object. An absent property is not a key; `{ k: undefined }` maps `k` to `Undefined`. */
  type Obj = map<string, Value>

  /** JavaScript truthiness: `undefined`, `null`, `false`, `0` and `""` are falsy. */
  predicate Truthy(v: Value) {
    match v
    case Undefined => false
    case Null => false
    case Bool(b) => b
    case Num(n) => n != 0
    case Str(s) => s != ""
  }

  /** Property read `o.k`: an absent property reads as `undefined`. */
  function Get(o: Obj, k: string): Value {
    if k in o then o[k] else Undefined
  }

  /** `a || b`: `a` when it is truthy, otherwise `b`. */
  function Or(a: Value, b: Value): Value {
    if Truthy(a) then a else b
  }

  /** `r` is what `a || b || last` evaluates to, case by case: the first truthy operand, else `last`. */
  ghost predicate FirstTruthyOf(r: Value, a: Value, b: Value, last: Value) {
    && (Truthy(a) ==> r == a)
    && (!Truthy(a) && Truthy(b) ==> r == b)
    && (!Truthy(a) && !Truthy(b) ==> r == last)
  }
}

=== FILE: password_reset.dfy ===
/** The password-reset flows of the user store: `updatePasswordWithToken`,
    `completePasswordReset`, `completeForgotPasswordReset`, and the session recovery of
    `exchangeRecoveryToken`. Each is a straight line of service calls whose failures leave the
    user and profile as they were. */
module PasswordReset {
  import opened Results
  import opened JsValues
  import opened Text
  import opened FormUrlEncoded
  import opened Profiles
  import opened Store
  import opened Recovery

  /** The answer to `auth.updateUser({password})`: an error, or the updated user (possibly null). */
  datatype PasswordChange = ChangeRejected(err: GatewayError) | Changed(user: Option<AuthUser>)

  /** The two `new Date().toISOString()` readings taken for the stamp, in order. They may differ. */
  datatype StampReadings = StampReadings(changedAt: string, updatedAt: string)

  /** The columns stamped on the profile view after a password change: exactly the change time
      and the update time, each from its own reading of the clock. */
  function PasswordStamp(readings: StampReadings): (stamp: Obj)
    ensures stamp.Keys == {"password_changed_at", "updated_at"}
    ensures stamp["password_changed_at"] == Str(readings.changedAt)
    ensures stamp["updated_at"] == Str(readings.updatedAt)
  {
    map["password_changed_at" := Str(readings.changedAt), "updated_at" := Str(readings.updatedAt)]
  }

  /** The calls after a successful password change: the stamp, when the service returned a
      user, then the sign-out. Their answers are ignored, so the model takes none. */
  function ClosingCalls(user: Option<AuthUser>, readings: StampReadings): (calls: seq<Call>)
    ensures |calls| >= 1 && calls[|calls| - 1] == SignOutCall
    ensures user.Some? <==> |calls| == 2
    ensures user.Some? ==> calls[0] == UpdateView(user.value.id, PasswordStamp(readings))
  {
    (if user.Some? then [UpdateView(user.value.id, PasswordStamp(readings))] else []) + [SignOutCall]
  }

  /** The store after a successful reset: signed out locally, not loading, no error. */
  function SignedOutAfterReset(s: StoreState): (t: StoreState)
    ensures t.user.None? && t.profile.None? && !t.isLoading && t.error.None?
    ensures t.preferences == s.preferences && t.isInitialized == s.isInitialized
  {
    s.(isLoading := false, error := None, user := None, profile := None)
  }

  const NoActiveSession := "No active session. Please request a new password reset."
  const PasswordResetDone := "Password has been reset successfully. Please log in with your new password."

  /** `getSession` reported a session (an error reads as none: its data is ignored). */
  predicate HasSession(session: SessionRead) {
    session.Active?
  }

  /** `updatePasswordWithToken(newPassword)`: with a session, change the password, stamp the
      profile, sign out and clear the user and profile; without one, or when the change is
      refused, fail and record the message. */
  function UpdatePasswordWithToken(s: StoreState, newPassword: string, readings: StampReadings, session: SessionRead, change: PasswordChange): (run: Run<string>)
    ensures !run.state.isLoading
    ensures |run.calls| >= 1 && run.calls[0] == GetSession
    ensures !HasSession(session) ==> run.reply == Failure(NoActiveSession) && run.calls == [GetSession]
    ensures HasSession(session) ==> |run.calls| >= 2 && run.calls[1] == UpdatePassword(newPassword)
    ensures run.reply.Success? <==> HasSession(session) && change.Changed?
    ensures run.reply.Success? ==>
      && run.reply.value == PasswordResetDone
      && run.state == SignedOutAfterReset(s)
      && run.calls == [GetSession, UpdatePassword(newPassword)] + ClosingCalls(change.user, readings)
    ensures HasSession(session) && change.ChangeRejected? ==>
      run.reply == Failure(MessageOr(change.err, "Failed to update password"))
      && run.calls == [GetSession, UpdatePassword(newPassword)]
    ensures run.reply.Failure? ==> run.state == s.(isLoading := false, error := Some(run.reply.error))
    ensures ProfileNeedsUser(s) ==> ProfileNeedsUser(run.state)
  {
    var s1 := s.(isLoading := true, error := None);
    var run :=
      if !HasSession(session) then
        Run(s1.(error := Some(NoActiveSession)), Failure(NoActiveSession), [GetSession])
      else
        match change
        case ChangeRejected(err) =>
          var message := MessageOr(err, "Failed to update password");
          Run(s1.(error := Some(message)), Failure(message), [GetSession, UpdatePassword(newPassword)])
        case Changed(user) =>
          Run(s1.(user := None, profile := None), Success(PasswordResetDone),
              [GetSession, UpdatePassword(newPassword)] + ClosingCalls(user, readings));
    run.(state := run.state.(isLoading := false))
  }

  const InvalidResetToken := "Invalid or expired reset token"

  /** `completePasswordReset(token, newPassword)`: verify the token, then delegate to
      `updatePasswordWithToken`, whose reply is returned as it is. */
  function CompletePasswordReset(s: StoreState, token: string, newPassword: string, readings: StampReadings, verify: Status, session: SessionRead, change: PasswordChange): (run: Run<string>)
    ensures !run.state.isLoading
    ensures |run.calls| >= 1 && run.calls[0] == VerifyOtp(token)
    ensures verify.Err? ==>
      run == Run(s.(isLoading := false, error := Some(InvalidResetToken)), Failure(InvalidResetToken), [VerifyOtp(token)])
    ensures run.reply.Success? <==> verify.Ok? && HasSession(session) && change.Changed?
    ensures verify.Ok? ==>
      var inner := UpdatePasswordWithToken(s, newPassword, readings, session, change);
      run.reply == inner.reply && run.state == inner.state && run.calls == [VerifyOtp(token)] + inner.calls
    ensures run.reply.Success? ==> run.state == SignedOutAfterReset(s)
    ensures run.reply.Failure? ==> run.state == s.(isLoading := false, error := Some(run.reply.error))
  {
    var s1 := s.(isLoading := true, error := None);
    if verify.Err? then
      Run(s1.(isLoading := false, error := Some(InvalidResetToken)), Failure(InvalidResetToken), [VerifyOtp(token)])
    else
      var inner := UpdatePasswordWithToken(s1, newPassword, readings, session, change);
      Run(inner.state.(isLoading := false), inner.reply, [VerifyOtp(token)] + inner.calls)
  }

  /** The answer to `auth.verifyOtp` in the forgot-password flow: an error, or the session it
      established (possibly none). */
  datatype Verification = VerifyRejected(err: GatewayError) | Verified(session: Option<Session>)

  /** The exits of `completeForgotPasswordReset` that fail. */
  datatype ForgotStage = MissingToken | VerifyFailed | NoRecoverySession | UpdateFailed

  const VerifyFailedPrefix := "Invalid or expired recovery token: "
  const UpdateFailedPrefix := "Failed to update password: "

  /** The message of each failing exit; `detail` is the service's message where one is quoted. */
  function ForgotFailure(stage: ForgotStage, detail: string): string {
    match stage
    case MissingToken => "No recovery token found in URL"
    case VerifyFailed => VerifyFailedPrefix + detail
    case NoRecoverySession => "Failed to establish recovery session"
    case UpdateFailed => UpdateFailedPrefix + detail
  }

  /** No failure message is empty, so the flow's `message || fallback` never needs its fallback;
      a quoted detail can be read back from its message; and the exits that quote nothing do not
      look like the ones that do. */
  lemma ForgotFailureMessages(stage: ForgotStage, detail: string)
    ensures var message := ForgotFailure(stage, detail);
      && message != ""
      && (stage.VerifyFailed? ==> StartsWith(message, VerifyFailedPrefix) && message[|VerifyFailedPrefix|..] == detail)
      && (stage.UpdateFailed? ==> StartsWith(message, UpdateFailedPrefix) && message[|UpdateFailedPrefix|..] == detail)
      && (stage.MissingToken? || stage.NoRecoverySession? ==>
            !StartsWith(message, VerifyFailedPrefix) && !StartsWith(message, UpdateFailedPrefix))
  {
    var m := ForgotFailure(stage, detail);
    match stage
    case MissingToken =>
      assert m[0] != VerifyFailedPrefix[0] && m[0] != UpdateFailedPrefix[0];
    case VerifyFailed =>
      assert m[..|VerifyFailedPrefix|] == VerifyFailedPrefix;
    case NoRecoverySession =>
      assert m[0] != VerifyFailedPrefix[0] && m[10] != UpdateFailedPrefix[10];
    case UpdateFailed =>
      assert m[..|UpdateFailedPrefix|] == UpdateFailedPrefix;
  }

  /** Distinct failing exits have distinct messages, whatever the service's messages are. */
  lemma ForgotFailuresDistinct(a: ForgotStage, da: string, b: ForgotStage, db: string)
    requires a != b
    ensures ForgotFailure(a, da) != ForgotFailure(b, db)
  {
    var ma, mb := ForgotFailure(a, da), ForgotFailure(b, db);
    assert |ma| > 10 && |mb| > 10;
    assert ma[0] != mb[0] || ma[10] != mb[10];
  }

  const ForgotResetDone := "Password has been reset successfully. You can now log in with your new password."

  /** A run of `completeForgotPasswordReset` and the browser after it (the fragment is cleared
      on success). */
  datatype ForgotRun = ForgotRun(run: Run<string>, browser: Browser)

  /** `completeForgotPasswordReset(newPassword)`: take the token from the fragment, verify it,
      require the session it establishes, change the password, then stamp, sign out, clear the
      user and profile and drop the fragment. Every failing exit has its own message and leaves
      the user, the profile and the fragment as they were. */
  function CompleteForgotPasswordReset(s: StoreState, b: Browser, newPassword: string, readings: StampReadings, verify: Verification, change: PasswordChange): (r: ForgotRun)
    ensures !r.run.state.isLoading
    ensures !HasRecoveryToken(b) ==>
      r.run.reply == Failure(ForgotFailure(MissingToken, "")) && r.run.calls == []
    ensures HasRecoveryToken(b) ==>
      |r.run.calls| >= 1 && r.run.calls[0] == VerifyOtp(ParseRecoveryToken(b).value)
    ensures HasRecoveryToken(b) && verify.VerifyRejected? ==>
      r.run.reply == Failure(ForgotFailure(VerifyFailed, verify.err.message))
    ensures HasRecoveryToken(b) && verify == Verified(None) ==>
      r.run.reply == Failure(ForgotFailure(NoRecoverySession, ""))
    ensures HasRecoveryToken(b) && verify.Verified? && verify.session.Some? && change.ChangeRejected? ==>
      r.run.reply == Failure(ForgotFailure(UpdateFailed, change.err.message))
    ensures HasRecoveryToken(b) && !(verify.Verified? && verify.session.Some?) ==>
      r.run.calls == [VerifyOtp(ParseRecoveryToken(b).value)]
    ensures HasRecoveryToken(b) && verify.Verified? && verify.session.Some? && change.ChangeRejected? ==>
      r.run.calls == [VerifyOtp(ParseRecoveryToken(b).value), UpdatePassword(newPassword)]
    ensures r.run.reply.Success? <==> HasRecoveryToken(b) && verify.Verified? && verify.session.Some? && change.Changed?
    ensures r.run.reply.Success? ==>
      && r.run.reply.value == ForgotResetDone
      && r.run.state == SignedOutAfterReset(s)
      && r.browser == Window("")
      && r.run.calls == [VerifyOtp(ParseRecoveryToken(b).value), UpdatePassword(newPassword)] + ClosingCalls(change.user, readings)
    ensures r.run.reply.Failure? ==>
      r.run.state == s.(isLoading := false, error := Some(r.run.reply.error)) && r.browser == b
    ensures ProfileNeedsUser(s) ==> ProfileNeedsUser(r.run.state)
  {
    var s1 := s.(isLoading := true, error := None);
    var run :=
      if !HasRecoveryToken(b) then
        var message := ForgotFailure(MissingToken, "");
        Run(s1.(error := Some(message)), Failure(message), [])
      else
        ForgotStages(s1, ParseRecoveryToken(b).value, newPassword, readings, verify, change);
    var browser := if run.reply.Success? then Window("") else b;
    ForgotRun(run.(state := run.state.(isLoading := false)), browser)
  }

  /** The stages of `completeForgotPasswordReset` once a token is found: verify it, require the
      session it establishes, change the password, then stamp and sign out. */
  function ForgotStages(s: StoreState, token: string, newPassword: string, readings: StampReadings, verify: Verification, change: PasswordChange): (run: Run<string>)
    ensures |run.calls| >= 1 && run.calls[0] == VerifyOtp(token)
    ensures verify.VerifyRejected? ==> run.reply == Failure(ForgotFailure(VerifyFailed, verify.err.message))
    ensures verify == Verified(None) ==> run.reply == Failure(ForgotFailure(NoRecoverySession, ""))
    ensures verify.Verified? && verify.session.Some? && change.ChangeRejected? ==>
      run.reply == Failure(ForgotFailure(UpdateFailed, change.err.message))
    ensures !(verify.Verified? && verify.session.Some?) ==> run.calls == [VerifyOtp(token)]
    ensures verify.Verified? && verify.session.Some? && change.ChangeRejected? ==>
      run.calls == [VerifyOtp(token), UpdatePassword(newPassword)]
    ensures run.reply.Success? <==> verify.Verified? && verify.session.Some? && change.Changed?
    ensures run.reply.Success? ==>
      && run.reply.value == ForgotResetDone
      && run.state == s.(user := None, profile := None)
      && run.calls == [VerifyOtp(token), UpdatePassword(newPassword)] + ClosingCalls(change.user, readings)
    ensures run.reply.Failure? ==> run.state == s.(error := Some(run.reply.error))
  {
    var verified := [VerifyOtp(token)];
    match verify
    case VerifyRejected(err) =>
      var message := ForgotFailure(VerifyFailed, err.message);
      Run(s.(error := Some(message)), Failure(message), verified)
    case Verified(None) =>
      var message := ForgotFailure(NoRecoverySession, "");
      Run(s.(error := Some(message)), Failure(message), verified)
    case Verified(Some(_)) =>
      var changing := verified + [UpdatePassword(newPassword)];
      match change
      case ChangeRejected(err) =>
        var message := ForgotFailure(UpdateFailed, err.message);
        Run(s.(error := Some(message)), Failure(message), changing)
      case Changed(user) =>
        Run(s.(user := None, profile := None), Success(ForgotResetDone), changing + ClosingCalls(user, readings))
  }

  /** A second forgot-password run after a successful one finds no token and fails at once. The
      requires is exactly the condition under which the first run succeeds. */
  lemma ForgotResetNotRepeatable(s: StoreState, b: Browser, pw: string, readings: StampReadings, verify: Verification, change: PasswordChange,
                                 pw2: string, readings2: StampReadings, verify2: Verification, change2: PasswordChange)
    requires HasRecoveryToken(b) && verify.Verified? && verify.session.Some? && change.Changed?
    ensures var first := CompleteForgotPasswordReset(s, b, pw, readings, verify, change);
      var second := CompleteForgotPasswordReset(first.run.state, first.browser, pw2, readings2, verify2, change2);
      second.run.reply == Failure(ForgotFailure(MissingToken, "")) && second.run.calls == []
  {
    var first := CompleteForgotPasswordReset(s, b, pw, readings, verify, change);
    assert Fragment(first.browser) == "";
  }

  /** The answer to `auth.setSession`: an error, or the session it returned (possibly none). */
  datatype SetSessionAnswer = SetRejected(err: GatewayError) | SetAccepted(session: Option<Session>)

  /** The answers `exchangeRecoveryToken` may receive: the first session read, the answer to
      `setSession`, and the session read after `refreshSession`. */
  datatype ExchangeAnswers = ExchangeAnswers(first: SessionRead, setSession: SetSessionAnswer, after: SessionRead)

  /** A reply of `exchangeRecoveryToken` and the calls made; the store is not changed. */
  datatype Exchange = Exchange(reply: Result<Option<Session>, string>, calls: seq<Call>)

  const NoWindowMessage := "window is not defined"
  const NoTokenMessage := "No recovery token found"
  const InvalidTypeMessage := "Invalid recovery type"
  const NoSessionMessage := "Failed to establish recovery session"

  /** The token and the `type` parameter `exchangeRecoveryToken` reads from a fragment: the text
      before the first '?', and `type` in the query after it (none when there is no '?'). */
  function FragmentToken(hash: string): (token: string)
    ensures '?' !in token && StartsWith(hash, token)
    ensures token == hash[..Find(hash, '?')]
  {
    var parts := Split(hash, '?');
    JoinSplit(hash, '?');
    if |parts| == 1 then
      assert hash == parts[0];
      parts[0]
    else
      assert hash == parts[0] + ['?'] + Join(parts[1..], '?');
      FindAfter(parts[0], '?', Join(parts[1..], '?'));
      parts[0]
  }

  /** The `type` parameter of the query between the first '?' and the next one (or the end);
      none without a '?'. */
  function FragmentType(hash: string): (t: Option<string>)
    ensures '?' !in hash ==> t.None?
    ensures '?' in hash ==>
      var rest := hash[Find(hash, '?') + 1..];
      t == GetParam(ParseQuery(rest[..Find(rest, '?')]), "type")
  {
    var parts := Split(hash, '?');
    if Find(hash, '?') == |hash| then None
    else
      SplitSecond(hash, '?');
      GetParam(ParseQuery(parts[1]), "type")
  }

  /** `exchangeRecoveryToken`: keep an existing session; otherwise read `<token>?<query>` from
      the fragment, require `type=recovery`, and set a session from the token, retrying through
      a refresh when that is refused. */
  function ExchangeRecoveryToken(b: Browser, a: ExchangeAnswers): (e: Exchange)
    ensures |e.calls| >= 1 && e.calls[0] == GetSession
    ensures a.first.SessionError? ==> e == Exchange(Failure(a.first.err.message), [GetSession])
    ensures a.first.Active? ==> e == Exchange(Success(Some(a.first.session)), [GetSession])
    ensures a.first.NoSession? && b.NoWindow? ==> e == Exchange(Failure(NoWindowMessage), [GetSession])
    ensures a.first.NoSession? && b.Window? && FragmentToken(Fragment(b)) != "" && FragmentType(Fragment(b)) == Some("recovery") ==>
      |e.calls| > 1
    ensures |e.calls| > 1 ==>
      && a.first.NoSession? && b.Window?
      && FragmentToken(Fragment(b)) != "" && FragmentType(Fragment(b)) == Some("recovery")
      && e.calls[1] == SetSession(FragmentToken(Fragment(b)), FragmentToken(Fragment(b)))
    ensures e.reply.Success? ==> a.first.Active? || |e.calls| > 1
    ensures a.first.NoSession? && b.Window? && FragmentToken(Fragment(b)) == "" ==>
      e == Exchange(Failure(NoTokenMessage), [GetSession])
    ensures a.first.NoSession? && b.Window? && FragmentToken(Fragment(b)) != "" && FragmentType(Fragment(b)) != Some("recovery") ==>
      e == Exchange(Failure(InvalidTypeMessage), [GetSession])
    ensures |e.calls| > 1 && a.setSession.SetAccepted? ==>
      e.reply == Success(a.setSession.session) && |e.calls| == 2
    ensures |e.calls| > 1 && a.setSession.SetRejected? ==>
      && e.calls[2..] == [RefreshSession, GetSession]
      && (e.reply.Success? <==> a.after.Active?)
      && (a.after.Active? ==> e.reply == Success(Some(a.after.session)))
      && (!a.after.Active? ==> e.reply == Failure(NoSessionMessage))
  {
    match a.first
    case SessionError(err) => Exchange(Failure(err.message), [GetSession])
    case Active(session) => Exchange(Success(Some(session)), [GetSession])
    case NoSession =>
      if b.NoWindow? then Exchange(Failure(NoWindowMessage), [GetSession])
      else
        var hash := Fragment(b);
        var token := FragmentToken(hash);
        if token == "" then Exchange(Failure(NoTokenMessage), [GetSession])
        else if FragmentType(hash) != Some("recovery") then Exchange(Failure(InvalidTypeMessage), [GetSession])
        else
          var setting := [GetSession, SetSession(token, token)];
          match a.setSession
          case SetAccepted(session) => Exchange(Success(session), setting)
          case SetRejected(_) =>
            var retried := setting + [RefreshSession, GetSession];
            if a.after.Active? then Exchange(Success(Some(a.after.session)), retried)
            else Exchange(Failure(NoSessionMessage), retried)
  }

  /** `<token>?type=recovery` splits at its one '?'. */
  lemma SplitRecoveryShape(token: string)
    requires '?' !in token
    ensures Split(token + RecoveryMarker, '?') == [token, RecoveryType]
  {
    assert token + RecoveryMarker == Join([token, RecoveryType], '?');
    SplitJoin([token, RecoveryType], '?');
  }

  /** On the fragment `#<token>?type=recovery`, with no session yet, `exchangeRecoveryToken`
      sets a session from the token. */
  lemma ExchangeSetsSessionFromToken(token: string, a: ExchangeAnswers)
    requires token != "" && '?' !in token && a.first.NoSession?
    ensures var e := ExchangeRecoveryToken(Window("#" + token + RecoveryMarker), a);
      |e.calls| > 1 && e.calls[1] == SetSession(token, token)
  {
    var b := Window("#" + token + RecoveryMarker);
    var hash := Fragment(b);
    assert hash == token + RecoveryMarker;
    SplitRecoveryShape(token);
    RecoveryTypeParses();
    assert FragmentToken(hash) == token;
    assert FragmentType(hash) == Some("recovery");
  }

  /** On that fragment both readers of the recovery token agree: `parseRecoveryToken` returns
      the token from which `exchangeRecoveryToken` sets the session. */
  lemma ExchangeAgreesWithParse(token: string, a: ExchangeAnswers)
    requires token != "" && '?' !in token && a.first.NoSession?
    ensures var b := Window("#" + token + RecoveryMarker);
      var e := ExchangeRecoveryToken(b, a);
      ParseRecoveryToken(b).Some? && |e.calls| > 1 && e.calls[1] == SetSession(ParseRecoveryToken(b).value, ParseRecoveryToken(b).value)
  {
    RecoveryFragmentRoundTrip(token);
    ExchangeSetsSessionFromToken(token, a);
  }
}

=== FILE: profile_page.dfy ===
/** The profile page: the initialise-once effect, the form filled from the cached profile, the
    save payload handed to `updateProfile`, and the avatar change followed by a refresh.
    Rendering, the banner timer and `handleChange` (a plain field assignment) are not modelled. */
module ProfilePage {
  import opened Results
  import opened JsValues
  import opened Text
  import opened Profiles
  import opened Store
  import opened Avatar

  /** The form fields. Text fields hold whatever value the profile had, as JavaScript would. */
  datatype ProfileForm = ProfileForm(fullName: Value, phone: Value, bio: Value, dateOfBirth: Value, subscribed: bool)

  /** The length of the date part of an ISO timestamp, `YYYY-MM-DD`. */
  const DateLength: nat := 10

  /** The form filled from a profile row; none when a truthy non-string `date_of_birth` makes
      `substring` throw. */
  function FormFromProfile(p: Obj): (r: Option<ProfileForm>)
    ensures r.None? <==> Truthy(Get(p, "date_of_birth")) && !Get(p, "date_of_birth").Str?
    ensures r.Some? ==>
      && FirstTruthyOf(r.value.fullName, Get(p, "full_name"), Str(""), Str(""))
      && FirstTruthyOf(r.value.phone, Get(p, "phone"), Str(""), Str(""))
      && FirstTruthyOf(r.value.bio, Get(p, "bio"), Str(""), Str(""))
      && r.value.subscribed == Truthy(Get(p, "subscribed_to_newsletters"))
    ensures r.Some? && Truthy(Get(p, "date_of_birth")) ==>
      r.value.dateOfBirth == Str(Prefix(Get(p, "date_of_birth").s, DateLength))
    ensures r.Some? && !Truthy(Get(p, "date_of_birth")) ==> r.value.dateOfBirth == Str("")
  {
    var dob := Get(p, "date_of_birth");
    if Truthy(dob) && !dob.Str? then None
    else
      Some(ProfileForm(
        Or(Get(p, "full_name"), Str("")),
        Or(Get(p, "phone"), Str("")),
        Or(Get(p, "bio"), Str("")),
        if Truthy(dob) then Str(Prefix(dob.s, DateLength)) else Str(""),
        Truthy(Get(p, "subscribed_to_newsletters"))))
  }

  /** The hydration effect: with a cached profile the form is replaced by the profile's fields;
      without one the form stays. None when the effect throws. */
  function HydrateForm(form: ProfileForm, profile: Option<Obj>): (r: Option<ProfileForm>)
    ensures profile.None? ==> r == Some(form)
    ensures profile.Some? ==> r == FormFromProfile(profile.value)
  {
    if profile.None? then Some(form) else FormFromProfile(profile.value)
  }

  /** The hydrated date is at most ten characters, a prefix of the stored one. */
  lemma HydratedDateIsPrefix(p: Obj)
    requires FormFromProfile(p).Some? && Get(p, "date_of_birth").Str?
    ensures var d := FormFromProfile(p).value.dateOfBirth;
      d.Str? && |d.s| <= DateLength && StartsWith(Get(p, "date_of_birth").s, d.s)
  {
  }

  /** The object `handleSave` passes to `updateProfile`: always these five keys, with an empty
      date sent as null. */
  function SavePayload(form: ProfileForm): (updates: Obj)
    ensures updates.Keys == {"full_name", "phone", "bio", "date_of_birth", "subscribed_to_newsletters"}
    ensures updates["full_name"] == form.fullName
    ensures updates["phone"] == form.phone && updates["bio"] == form.bio
    ensures updates["date_of_birth"] == (if Truthy(form.dateOfBirth) then form.dateOfBirth else Null)
    ensures updates["subscribed_to_newsletters"] == Bool(form.subscribed)
  {
    map[
      "full_name" := form.fullName,
      "phone" := form.phone,
      "bio" := form.bio,
      "date_of_birth" := Or(form.dateOfBirth, Null),
      "subscribed_to_newsletters" := Bool(form.subscribed)
    ]
  }

  /** Of the five saved fields only the name reaches the base row: `updateProfile` renames
      `full_name` to `name` and drops phone, bio, date of birth and newsletter flag. */
  lemma SaveReachesOnlyName(form: ProfileForm, iso: string)
    ensures var written := UpdatePayload(SavePayload(form), iso);
      && written.Keys == (if form.fullName == Undefined then {"updated_at"} else {"name", "updated_at"})
      && (form.fullName != Undefined ==> written["name"] == form.fullName)
  {
    var updates := SavePayload(form);
    assert PayloadSource(updates, "name") == form.fullName;
    assert PayloadSource(updates, "avatar") == Undefined;
    assert PayloadSource(updates, "interests") == Undefined;
    assert PayloadSource(updates, "user_id") == Undefined;
  }

  /** A form filled from a normalised profile and saved unchanged writes back the profile's
      `full_name` as the base row's `name`. */
  lemma HydrateSaveKeepsName(raw: Obj, iso: string)
    requires FormFromProfile(NormalizeProfile(Some(raw)).value).Some?
    ensures var p := NormalizeProfile(Some(raw)).value;
      var written := UpdatePayload(SavePayload(FormFromProfile(p).value), iso);
      "name" in written && written["name"] == p["full_name"]
  {
    var p := NormalizeProfile(Some(raw)).value;
    var form := FormFromProfile(p).value;
    assert Get(p, "full_name") == p["full_name"];
    assert form.fullName == p["full_name"];
    SaveReachesOnlyName(form, iso);
  }

  /** One save: the store run of `updateProfile` and whether the saved banner shows. */
  datatype Save = Save(run: Run<Obj>, banner: bool)

  /** `handleSave`: send the form through `updateProfile`; show the banner on success. */
  function HandleSave(s: StoreState, form: ProfileForm, iso: string, write: Status, view: SingleRead): (r: Save)
    ensures r.run == UpdateProfile(s, SavePayload(form), iso, write, view)
    ensures r.banner <==> r.run.reply.Success?
    ensures r.banner <==> s.user.Some? && write.Ok? && view.Success?
    ensures s.user.None? ==> r.run.reply == Failure(NotAuthenticated) && r.run.calls == []
    ensures s.user.Some? ==>
      |r.run.calls| >= 1 && r.run.calls[0] == UpdateBase(s.user.value.id, UpdatePayload(SavePayload(form), iso))
    ensures r.run.reply.Success? ==> r.run.state.profile == Some(r.run.reply.value)
  {
    var run := UpdateProfile(s, SavePayload(form), iso, write, view);
    Save(run, run.reply.Success?)
  }

  /** The initialise-once effect: run `initialize` only while the store is not initialised. */
  function InitializeOnce(s: StoreState, session: SessionRead, load: LoadAnswers): (e: Effect)
    ensures e.state.isInitialized
    ensures s.isInitialized ==> e == Effect(s, [])
    ensures !s.isInitialized ==> e == Initialize(s, session, load)
    ensures !s.isInitialized ==> |e.calls| >= 1 && e.calls[0] == GetSession
  {
    if s.isInitialized then Effect(s, []) else Initialize(s, session, load)
  }

  /** Running the effect a second time changes nothing and calls nothing. */
  lemma InitializeOnceIdempotent(s: StoreState, session: SessionRead, load: LoadAnswers, session2: SessionRead, load2: LoadAnswers)
    ensures var first := InitializeOnce(s, session, load);
      InitializeOnce(first.state, session2, load2) == Effect(first.state, [])
  {
  }

  /** The answers the avatar change may receive: those of the upload, then those of the
      profile refresh. */
  datatype AvatarChangeAnswers = AvatarChangeAnswers(upload: UploadAnswers, view: Read, base: Read)

  /** `handleAvatarChange`: with a chosen file, upload it and, when that succeeds, refresh the
      profile. Without a file nothing happens. */
  function HandleAvatarChange(s: StoreState, file: Option<AvatarFile>, millis: nat, iso: string, a: AvatarChangeAnswers): (e: Effect)
    ensures file.None? ==> e == Effect(s, [])
    ensures file.Some? ==>
      var up := UploadAvatar(s, file.value, millis, iso, a.upload);
      && |e.calls| >= |up.calls| && e.calls[..|up.calls|] == up.calls
      && (up.reply.Failure? ==> e == Effect(up.state, up.calls))
      && (up.reply.Success? ==> |e.calls| > |up.calls| && e.calls[|up.calls|] == ReadView(s.user.value.id))
      && (up.reply.Success? ==>
            var refresh := RefreshProfile(up.state, a.view, a.base);
            e == Effect(refresh.state, up.calls + refresh.calls))
    ensures ProfileNeedsUser(s) ==> ProfileNeedsUser(e.state)
    ensures e.state.user == s.user && e.state.isLoading == s.isLoading
  {
    if file.None? then Effect(s, [])
    else
      var up := UploadAvatar(s, file.value, millis, iso, a.upload);
      if up.reply.Failure? then Effect(up.state, up.calls)
      else
        var refresh := RefreshProfile(up.state, a.view, a.base);
        Effect(refresh.state, up.calls + refresh.calls)
  }
}

=== FILE: profiles.dfy ===
/** Profile rows as the user store reads and writes them: the normaliser that maps the legacy
    row shape (`name`, `avatar`) and the current one (`full_name`, `avatar_url`) onto one shape,
    the base row created for a user who has none, and the payload `updateProfile` writes. */
module Profiles {
  import opened Results
  import opened JsValues
  import opened Text

  /** The authenticated user as the auth service reports it: id, email and metadata bag. */
  datatype AuthUser = AuthUser(id: string, email: Value, metadata: Obj)

  /** `authUser?.user_metadata?.<key>`. */
  function Meta(u: Option<AuthUser>, key: string): Value {
    if u.Some? then Get(u.value.metadata, key) else Undefined
  }

  /** `authUser?.email`. */
  function Email(u: Option<AuthUser>): Value {
    if u.Some? then u.value.email else Undefined
  }

  /** `_normalizeProfile`: a null row stays null; otherwise `full_name` becomes the first truthy
      of `full_name` and `name` (else ""), `avatar_url` the first truthy of `avatar_url` and
      `avatar` (else null), and every other property is kept as it is. */
  function NormalizeProfile(raw: Option<Obj>): (r: Option<Obj>)
    ensures raw.None? <==> r.None?
    ensures raw.Some? ==> r.value.Keys == raw.value.Keys + {"full_name", "avatar_url"}
    ensures raw.Some? ==> forall k | k in raw.value && k != "full_name" && k != "avatar_url" :: r.value[k] == raw.value[k]
    ensures raw.Some? ==> FirstTruthyOf(r.value["full_name"], Get(raw.value, "full_name"), Get(raw.value, "name"), Str(""))
    ensures raw.Some? ==> FirstTruthyOf(r.value["avatar_url"], Get(raw.value, "avatar_url"), Get(raw.value, "avatar"), Null)
  {
    if raw.None? then None
    else
      var o := raw.value;
      Some(o["full_name" := Or(Get(o, "full_name"), Or(Get(o, "name"), Str("")))]
            ["avatar_url" := Or(Get(o, "avatar_url"), Or(Get(o, "avatar"), Null))])
  }

  /** Normalising a normalised profile changes nothing. */
  lemma NormalizeIdempotent(raw: Option<Obj>)
    ensures NormalizeProfile(NormalizeProfile(raw)) == NormalizeProfile(raw)
  {
    if raw.Some? {
      var once := NormalizeProfile(raw).value;
      var twice := NormalizeProfile(Some(once)).value;
      var o := raw.value;
      assert once["full_name"] == Or(Get(o, "full_name"), Or(Get(o, "name"), Str("")));
      assert twice["full_name"] == once["full_name"] by {
        if !Truthy(once["full_name"]) {
          assert !Truthy(Get(o, "full_name")) && !Truthy(Get(o, "name"));
          assert Get(once, "name") == Get(o, "name");
        }
      }
      assert twice["avatar_url"] == once["avatar_url"] by {
        if !Truthy(once["avatar_url"]) {
          assert !Truthy(Get(o, "avatar_url")) && !Truthy(Get(o, "avatar"));
          assert Get(once, "avatar") == Get(o, "avatar");
        }
      }
      assert twice.Keys == once.Keys;
      assert forall k | k in once :: twice[k] == once[k];
      assert twice == once;
    }
  }

  /** The display name `loadProfile` gives a new base row: metadata `name`, metadata `full_name`,
      then the email, whichever is truthy first, else "Unknown User". */
  function FallbackName(u: Option<AuthUser>): (r: Value)
    ensures Truthy(r)
    ensures Truthy(Meta(u, "name")) ==> r == Meta(u, "name")
    ensures !Truthy(Meta(u, "name")) ==> FirstTruthyOf(r, Meta(u, "full_name"), Email(u), Str("Unknown User"))
  {
    Or(Meta(u, "name"), Or(Meta(u, "full_name"), Or(Email(u), Str("Unknown User"))))
  }

  /** The display id of a new base row: "user_" followed by the first eight characters of the id. */
  function FallbackUserId(userId: string): (r: string)
    ensures StartsWith(r, "user_")
    ensures |r| == 5 + (if |userId| < 8 then |userId| else 8)
    ensures StartsWith(userId, r[5..])
  {
    "user_" + Prefix(userId, 8)
  }

  /** The row `loadProfile` upserts into the base table when the profile view has no row. */
  function FallbackRow(userId: string, u: Option<AuthUser>): (row: Obj)
    ensures row.Keys == {"id", "user_id", "name", "avatar"}
    ensures row["id"] == Str(userId)
    ensures row["name"] == FallbackName(u)
    ensures Truthy(row["user_id"])
    ensures !Truthy(Meta(u, "user_id")) ==> row["user_id"] == Str(FallbackUserId(userId))
    ensures Truthy(Meta(u, "user_id")) ==> row["user_id"] == Meta(u, "user_id")
    ensures FirstTruthyOf(row["avatar"], Meta(u, "avatar"), Meta(u, "avatar_url"), Null)
  {
    map[
      "id" := Str(userId),
      "user_id" := Or(Meta(u, "user_id"), Str(FallbackUserId(userId))),
      "name" := FallbackName(u),
      "avatar" := Or(Meta(u, "avatar"), Or(Meta(u, "avatar_url"), Null))
    ]
  }

  /** A freshly created base row normalises to a profile whose `full_name` is the fallback name
      and whose `avatar_url` is the row's avatar. */
  lemma FallbackRowNormalizes(userId: string, u: Option<AuthUser>)
    ensures var p := NormalizeProfile(Some(FallbackRow(userId, u))).value;
      && p["id"] == Str(userId)
      && p["full_name"] == FallbackName(u)
      && Truthy(p["full_name"])
      && p["avatar_url"] == FallbackRow(userId, u)["avatar"]
  {
    var row := FallbackRow(userId, u);
    assert Get(row, "full_name") == Undefined;
    assert Get(row, "avatar_url") == Undefined;
  }

  /** The row `createUserProfile` upserts: the name falls back through metadata `name`, metadata
      `full_name`, the caller's `fullName` and the email, else "". */
  function CreateProfileRow(u: AuthUser, additional: Obj): (row: Obj)
    ensures row.Keys == {"id", "user_id", "name", "interests", "avatar"}
    ensures row["id"] == Str(u.id)
    ensures Truthy(row["name"]) || row["name"] == Str("")
    ensures FirstTruthyOf(row["name"], Meta(Some(u), "name"), Meta(Some(u), "full_name"), row["name"])
    ensures !Truthy(Meta(Some(u), "name")) && !Truthy(Meta(Some(u), "full_name")) ==>
      FirstTruthyOf(row["name"], Get(additional, "fullName"), u.email, Str(""))
    ensures Truthy(Meta(Some(u), "user_id")) ==> row["user_id"] == Meta(Some(u), "user_id")
    ensures !Truthy(Meta(Some(u), "user_id")) ==> row["user_id"] == Str(FallbackUserId(u.id))
    ensures FirstTruthyOf(row["avatar"], Meta(Some(u), "avatar"), Meta(Some(u), "avatar_url"), Null)
    ensures Truthy(Get(additional, "interests")) ==> row["interests"] == Get(additional, "interests")
    ensures !Truthy(Get(additional, "interests")) ==> row["interests"] == Null
  {
    var user := Some(u);
    map[
      "id" := Str(u.id),
      "user_id" := Or(Meta(user, "user_id"), Str(FallbackUserId(u.id))),
      "name" := Or(Meta(user, "name"), Or(Meta(user, "full_name"), Or(Get(additional, "fullName"), Or(u.email, Str(""))))),
      "interests" := Or(Get(additional, "interests"), Null),
      "avatar" := Or(Meta(user, "avatar"), Or(Meta(user, "avatar_url"), Null))
    ]
  }

  /** Without a caller-supplied `fullName`, the row `createUserProfile` builds and the row
      `loadProfile` upserts agree on id, display id and avatar, and on the name unless no name
      source is truthy, where `createUserProfile` writes "" and `loadProfile` writes
      "Unknown User". */
  lemma CreateRowAgreesWithFallbackRow(u: AuthUser, additional: Obj)
    requires !Truthy(Get(additional, "fullName"))
    ensures var created, fallback := CreateProfileRow(u, additional), FallbackRow(u.id, Some(u));
      && created["id"] == fallback["id"]
      && created["user_id"] == fallback["user_id"]
      && created["avatar"] == fallback["avatar"]
      && (created["name"] == fallback["name"] || (created["name"] == Str("") && fallback["name"] == Str("Unknown User")))
  {
  }

  /** The base-table columns `updateProfile` may write. */
  const AllowedFields: set<string> := {"name", "interests", "avatar", "user_id"}

  /** The value `updateProfile` copies into column `k`: `full_name` is renamed to `name` and
      `avatar_url` to `avatar`, and a present legacy key wins over the current one. */
  function PayloadSource(updates: Obj, k: string): Value {
    if k == "name" && "full_name" in updates then updates["full_name"]
    else if k == "avatar" && "avatar_url" in updates then updates["avatar_url"]
    else Get(updates, k)
  }

  /** The change set `updateProfile` sends to the base table: legacy keys renamed, only the
      allowed columns with defined values kept, and `updated_at` stamped with `iso`. */
  function UpdatePayload(updates: Obj, iso: string): (r: Obj)
    ensures r.Keys == (set k | k in AllowedFields && PayloadSource(updates, k) != Undefined) + {"updated_at"}
    ensures forall k | k in AllowedFields && k in r :: r[k] == PayloadSource(updates, k)
    ensures r["updated_at"] == Str(iso)
  {
    var renamed := if "full_name" in updates then updates["name" := updates["full_name"]] else updates;
    var mapped := if "avatar_url" in updates then renamed["avatar" := updates["avatar_url"]] else renamed;
    (map k | k in mapped && k in AllowedFields && mapped[k] != Undefined :: mapped[k])["updated_at" := Str(iso)]
  }
}

=== FILE: recovery.dfy ===
/** Finding the password-recovery token in the navigation fragment (`parseRecoveryToken`,
    `hasRecoveryToken`). Two shapes are accepted: `<token>?type=recovery`, and a
    form-urlencoded fragment that mentions `type=recovery` and carries `access_token` or `token`. */
module Recovery {
  import opened Results
  import opened Text
  import opened FormUrlEncoded

  /** The browser environment: no `window` during server rendering, otherwise `location.hash`
      as the browser reports it (`""` or `"#..."`). */
  datatype Browser = NoWindow | Window(hash: string)

  /** The marker of the `<token>?type=recovery` shape. */
  const RecoveryMarker: string := "?type=recovery"

  /** The text the form-urlencoded shape must contain. */
  const RecoveryType: string := "type=recovery"

  /** `window.location.hash.substring(1)`: the fragment without its '#'. */
  function Fragment(b: Browser): string
    requires b.Window?
  {
    DropFirst(b.hash)
  }

  /** `params.get('access_token') || params.get('token')`, kept only when it is non-empty. */
  function TokenParam(params: seq<Param>): (r: Option<string>)
    ensures r.Some? ==> r.value != ""
    ensures var access := GetParam(params, "access_token");
      access.Some? && access.value != "" ==> r == access
    ensures var access, token := GetParam(params, "access_token"), GetParam(params, "token");
      !(access.Some? && access.value != "") ==> r == (if token.Some? && token.value != "" then token else None)
  {
    var access := GetParam(params, "access_token");
    var token := if access.Some? && access.value != "" then access else GetParam(params, "token");
    if token.Some? && token.value != "" then token else None
  }

  /** `parseRecoveryToken`: the token of the navigation fragment, or null. */
  function ParseRecoveryToken(b: Browser): (r: Option<string>)
    ensures b.NoWindow? ==> r.None?
    ensures b.Window? && Fragment(b) == "" ==> r.None?
    ensures b.Window? && Includes(Fragment(b), RecoveryMarker) ==>
      r == Some(Fragment(b)[..Find(Fragment(b), '?')])
    ensures b.Window? && !Includes(Fragment(b), RecoveryMarker) && Includes(Fragment(b), RecoveryType) ==>
      r == TokenParam(ParseQuery(Fragment(b)))
    ensures r.Some? ==> b.Window? && Includes(Fragment(b), RecoveryType)
    ensures r.Some? && !Includes(Fragment(b), RecoveryMarker) ==> r.value != ""
  {
    if b.NoWindow? then None
    else
      var hash := Fragment(b);
      if hash == "" then None
      else if Includes(hash, RecoveryMarker) then
        IncludesTail(hash, RecoveryMarker);
        assert RecoveryMarker[1..] == RecoveryType;
        assert Split(hash, '?')[0] == hash[..Find(hash, '?')];
        Some(Split(hash, '?')[0])
      else if Includes(hash, RecoveryType) then TokenParam(ParseQuery(hash))
      else None
  }

  /** `hasRecoveryToken`: the parsed token is present and non-empty. */
  predicate HasRecoveryToken(b: Browser)
    ensures HasRecoveryToken(b) <==> ParseRecoveryToken(b).Some? && ParseRecoveryToken(b).value != ""
    ensures HasRecoveryToken(b) ==> b.Window? && Includes(Fragment(b), RecoveryType)
  {
    var token := ParseRecoveryToken(b);
    token.Some? && token.value != ""
  }

  /** The fragment `#<token>?type=recovery` yields the token back, for any token without '?'
      (the empty one included). */
  lemma RecoveryFragmentRoundTrip(token: string)
    requires '?' !in token
    ensures ParseRecoveryToken(Window("#" + token + RecoveryMarker)) == Some(token)
  {
    var hash := token + RecoveryMarker;
    assert Fragment(Window("#" + token + RecoveryMarker)) == hash;
    IncludesSuffix(token, RecoveryMarker);
    forall j | 0 <= j < |token| ensures hash[j] != '?' {
      assert hash[j] == token[j];
    }
    assert hash[|token|] == '?';
    assert Find(hash, '?') == |token|;
    assert hash[..|token|] == token;
  }

  /** The parameter `type=recovery`. */
  const RecoveryParam := Param("type", "recovery")

  /** The query `type=recovery` is the one parameter `type=recovery`. */
  lemma RecoveryTypeParses()
    ensures ParseQuery(RecoveryType) == [RecoveryParam]
  {
    assert Compose([RecoveryParam]) == RecoveryType;
    ComposeParseRoundTrip([RecoveryParam]);
  }

  /** Plain parameters free of '?'. */
  predicate QuestionFree(params: seq<Param>) {
    forall k | 0 <= k < |params| :: Plain(params[k]) && '?' !in params[k].name && '?' !in params[k].value
  }

  /** A composed query of '?'-free parameters has no '?'. */
  lemma ComposeQuestionFree(q: seq<Param>)
    requires |q| > 0 && QuestionFree(q)
    ensures '?' !in Compose(q)
  {
    var e := Encodings(q);
    forall k | 0 <= k < |e| ensures '?' !in e[k] {
      assert e[k] == q[k].name + "=" + q[k].value;
    }
    JoinExcludes(e, '&', '?');
  }

  /** Putting `type=recovery` first writes it in front of the rest. */
  lemma ComposeRecoveryFirst(params: seq<Param>)
    requires |params| > 0
    ensures Compose([RecoveryParam] + params) == RecoveryType + "&" + Compose(params)
  {
    var q := [RecoveryParam] + params;
    assert Encodings(q)[0] == RecoveryType;
    assert Encodings(q)[1..] == Encodings(params);
  }

  /** The fragment `type=recovery&n1=v1&...` lacks the `?type=recovery` marker. */
  lemma ComposedLacksMarker(params: seq<Param>)
    requires |params| > 0 && QuestionFree(params)
    ensures !Includes(Compose([RecoveryParam] + params), RecoveryMarker)
  {
    var q := [RecoveryParam] + params;
    assert QuestionFree(q);
    ComposeQuestionFree(q);
    ExcludesWithoutFirst(Compose(q), RecoveryMarker);
  }

  /** The fragment `type=recovery&n1=v1&...` contains `type=recovery`. */
  lemma ComposedHasType(params: seq<Param>)
    requires |params| > 0
    ensures Includes(Compose([RecoveryParam] + params), RecoveryType)
  {
    ComposeRecoveryFirst(params);
    IncludesPrefix(RecoveryType, "&" + Compose(params));
    assert RecoveryType + "&" + Compose(params) == RecoveryType + ("&" + Compose(params));
  }

  /** The fragment `type=recovery&n1=v1&...` lacks the `?type=recovery` marker, contains
      `type=recovery`, and parses back to its parameters. */
  lemma ComposedFragmentFacts(params: seq<Param>)
    requires |params| > 0 && QuestionFree(params)
    ensures var q := [RecoveryParam] + params;
      && !Includes(Compose(q), RecoveryMarker)
      && Includes(Compose(q), RecoveryType)
      && ParseQuery(Compose(q)) == q
  {
    var q := [RecoveryParam] + params;
    ComposedLacksMarker(params);
    ComposedHasType(params);
    assert forall k | 0 <= k < |q| :: Plain(q[k]);
    ComposeParseRoundTrip(q);
  }

  /** A fragment `#type=recovery&n1=v1&...` whose first `access_token` is non-empty yields that
      access token, for plain parameters without '?'. */
  lemma AccessTokenFragment(params: seq<Param>, i: int)
    requires QuestionFree(params)
    requires FirstNamed(params, "access_token", i) && params[i].value != ""
    ensures ParseRecoveryToken(Window("#" + Compose([RecoveryParam] + params))) == Some(params[i].value)
  {
    var q := [RecoveryParam] + params;
    var b := Window("#" + Compose(q));
    ComposedFragmentFacts(params);
    assert Fragment(b) == Compose(q);
    assert FirstNamed(q, "access_token", i + 1);
    assert GetParam(q, "access_token") == Some(params[i].value);
    assert ParseRecoveryToken(b) == TokenParam(q);
  }
}

=== FILE: reset_password_page.dfy ===
/** The reset-password page: the token taken from the fragment when the page mounts, the form
    validator, the per-field error clearing, and the submit guard in front of
    `updatePasswordWithToken`. Rendering, the show-password toggles and the redirect timer are
    not modelled. */
module ResetPasswordPage {
  import opened Results
  import opened Text
  import opened FormUrlEncoded
  import opened Store
  import opened Recovery
  import opened PasswordReset

  datatype ResetForm = ResetForm(password: string, confirmPassword: string)

  /** The two inputs of the form, and the key each uses in the error map. */
  datatype Field = PasswordField | ConfirmField

  function FieldKey(f: Field): string {
    match f
    case PasswordField => "password"
    case ConfirmField => "confirmPassword"
  }

  function FieldValue(form: ResetForm, f: Field): string {
    match f
    case PasswordField => form.password
    case ConfirmField => form.confirmPassword
  }

  /** The page's state: the form, the error map, the token, and the two progress flags. */
  datatype Page = Page(form: ResetForm, errors: map<string, string>, accessToken: Option<string>, extractingToken: bool, success: bool)

  const InitialPage := Page(ResetForm("", ""), map[], None, true, false)

  /** One step of the page: its new state, the store's new state, and the service calls made. */
  datatype PageStep = PageStep(page: Page, store: StoreState, calls: seq<Call>)

  const MissingTokenMessage := "Invalid or missing reset token. Please request a new password reset."
  const NoTokenOnSubmit := "No valid reset token found. Please request a new password reset."

  /** `params.get('access_token')` on the fragment of `hash`: present exactly when some parameter
      of the fragment is named `access_token`, and then the first such parameter's value. */
  function AccessTokenOf(hash: string): (token: Option<string>)
    ensures var params := ParseQuery(DropFirst(hash));
      token.Some? <==> exists k | 0 <= k < |params| :: params[k].name == "access_token"
    ensures var params := ParseQuery(DropFirst(hash));
      forall i | FirstNamed(params, "access_token", i) :: token == Some(params[i].value)
  {
    GetParam(ParseQuery(DropFirst(hash)), "access_token")
  }

  /** The mount effect: keep a non-empty `access_token` from the fragment, or record the general
      error; either way extraction ends and the store's error is cleared. */
  function ExtractToken(p: Page, s: StoreState, hash: string): (r: PageStep)
    ensures !r.page.extractingToken && r.store == ClearError(s) && r.calls == []
    ensures r.page.form == p.form && r.page.success == p.success
    ensures var token := AccessTokenOf(hash);
      token.Some? && token.value != "" ==> r.page.accessToken == token && r.page.errors == p.errors
    ensures var token := AccessTokenOf(hash);
      !(token.Some? && token.value != "") ==>
        r.page.accessToken == p.accessToken && r.page.errors == map["general" := MissingTokenMessage]
  {
    var token := AccessTokenOf(hash);
    var page :=
      if token.Some? && token.value != "" then p.(accessToken := token)
      else p.(errors := map["general" := MissingTokenMessage]);
    PageStep(page.(extractingToken := false), ClearError(s), [])
  }

  /** A fragment `#n1=v1&...` whose first `access_token` is non-empty hands that token to the
      page, for plain parameters. */
  lemma ExtractsComposedAccessToken(p: Page, s: StoreState, params: seq<Param>, i: int)
    requires forall k | 0 <= k < |params| :: Plain(params[k])
    requires NoLeadingQuestionMark(params)
    requires FirstNamed(params, "access_token", i) && params[i].value != ""
    ensures ExtractToken(p, s, "#" + Compose(params)).page.accessToken == Some(params[i].value)
  {
    ComposeParseRoundTrip(params);
    assert DropFirst("#" + Compose(params)) == Compose(params);
  }

  /** The page reads the recovery token only from `access_token`, so the fragment
      `#<token>?type=recovery` that `parseRecoveryToken` accepts gives the page no token, for
      any token without '?', '&' or '='. */
  lemma MarkerShapeHasNoAccessToken(token: string)
    requires '?' !in token && '&' !in token && '=' !in token
    ensures ParseRecoveryToken(Window("#" + token + RecoveryMarker)) == Some(token)
    ensures AccessTokenOf("#" + token + RecoveryMarker).None?
  {
    RecoveryFragmentRoundTrip(token);
    MarkerShapeQuery(token);
  }

  /** The query of `#<token>?type=recovery` has no `access_token`. */
  lemma MarkerShapeQuery(token: string)
    requires '?' !in token && '&' !in token && '=' !in token
    ensures AccessTokenOf("#" + token + RecoveryMarker).None?
  {
    var hash := "#" + token + RecoveryMarker;
    assert DropFirst(hash) == token + RecoveryMarker;
    MarkerFragmentQuery(token);
  }

  /** The fragment `<token>?type=recovery` has no parameter named `access_token`. */
  lemma MarkerFragmentQuery(token: string)
    requires '?' !in token && '&' !in token && '=' !in token
    ensures GetParam(ParseQuery(token + RecoveryMarker), "access_token").None?
  {
    if token == "" {
      assert token + RecoveryMarker == RecoveryMarker;
      BareMarkerQuery();
      assert RecoveryParam.name != "access_token";
    } else {
      MarkerShapeParam(token);
    }
  }

  /** The bare marker `?type=recovery` parses as the one parameter `type=recovery`. */
  lemma BareMarkerQuery()
    ensures ParseQuery(RecoveryMarker) == [RecoveryParam]
  {
    assert RecoveryMarker[1..] == RecoveryType;
    RecoveryTypeParses();
  }

  /** A non-empty `<token>?type=recovery` parses as the single parameter `<token>?type`. */
  lemma MarkerShapeParam(token: string)
    requires token != "" && '?' !in token && '&' !in token && '=' !in token
    ensures ParseQuery(token + RecoveryMarker) == [Param(token + "?type", "recovery")]
    ensures GetParam(ParseQuery(token + RecoveryMarker), "access_token").None?
  {
    assert (token + "?type")[|token|] == '?';
    assert '?' !in "access_token";
    var fragment := token + RecoveryMarker;
    var name := token + "?type";
    assert fragment == name + ['='] + "recovery";
    FindAfter(name, '=', "recovery");
    assert '&' !in fragment by {
      assert '&' !in RecoveryMarker;
    }
    SingleSequenceQuery(fragment);
  }

  const PasswordRequired := "Password is required"
  const PasswordTooShort := "Password must be at least 6 characters"
  const ConfirmRequired := "Please confirm your password"
  const PasswordsDiffer := "Passwords do not match"

  /** A form the validator accepts: a password of six or more characters, confirmed. */
  predicate FormValid(form: ResetForm) {
    |form.password| >= 6 && form.confirmPassword == form.password
  }

  /** `validateForm`: the error of each field, present only when the field fails its check. */
  function ValidateForm(form: ResetForm): (errors: map<string, string>)
    ensures errors.Keys <= {"password", "confirmPassword"}
    ensures "password" in errors <==> |form.password| < 6
    ensures "password" in errors ==>
      errors["password"] == (if form.password == "" then PasswordRequired else PasswordTooShort)
    ensures "confirmPassword" in errors <==> form.confirmPassword != form.password || form.confirmPassword == ""
    ensures "confirmPassword" in errors ==>
      errors["confirmPassword"] == (if form.confirmPassword == "" then ConfirmRequired else PasswordsDiffer)
    ensures errors == map[] <==> FormValid(form)
  {
    var password :=
      if form.password == "" then map["password" := PasswordRequired]
      else if |form.password| < 6 then map["password" := PasswordTooShort]
      else map[];
    var confirm :=
      if form.confirmPassword == "" then map["confirmPassword" := ConfirmRequired]
      else if form.password != form.confirmPassword then map["confirmPassword" := PasswordsDiffer]
      else map[];
    password + confirm
  }

  /** `handleInputChange(field, value)`: store the value, blank the field's error when it shows
      one, and clear the store's error. No other error entry changes. */
  function HandleInputChange(p: Page, s: StoreState, f: Field, value: string): (r: PageStep)
    ensures FieldValue(r.page.form, f) == value
    ensures forall g: Field | g != f :: FieldValue(r.page.form, g) == FieldValue(p.form, g)
    ensures r.page.errors.Keys == p.errors.Keys
    ensures forall k | k in p.errors && k != FieldKey(f) :: r.page.errors[k] == p.errors[k]
    ensures FieldKey(f) in r.page.errors ==> r.page.errors[FieldKey(f)] == ""
    ensures r.page.accessToken == p.accessToken && r.page.success == p.success
    ensures r.page.extractingToken == p.extractingToken
    ensures r.store == ClearError(s) && r.calls == []
  {
    var form := match f
      case PasswordField => p.form.(password := value)
      case ConfirmField => p.form.(confirmPassword := value);
    var key := FieldKey(f);
    var errors := if key in p.errors && p.errors[key] != "" then p.errors[key := ""] else p.errors;
    PageStep(p.(form := form, errors := errors), ClearError(s), [])
  }

  /** The page holds a usable token (`accessToken` is truthy). */
  predicate HasToken(p: Page) {
    p.accessToken.Some? && p.accessToken.value != ""
  }

  /** `handleSubmit`: validate; with a valid form and no token record the general error;
      otherwise call `updatePasswordWithToken` and show success when it succeeds. */
  function HandleSubmit(p: Page, s: StoreState, readings: StampReadings, session: SessionRead, change: PasswordChange): (r: PageStep)
    ensures r.page.form == p.form && r.page.accessToken == p.accessToken
    ensures r.page.extractingToken == p.extractingToken
    ensures r.calls != [] <==> FormValid(p.form) && HasToken(p)
    ensures !(FormValid(p.form) && HasToken(p)) ==> r.store == s && r.page.success == p.success
    ensures !FormValid(p.form) ==> r.page.errors == ValidateForm(p.form)
    ensures FormValid(p.form) && !HasToken(p) ==> r.page.errors == map["general" := NoTokenOnSubmit]
    ensures FormValid(p.form) && HasToken(p) ==>
      && r.calls == UpdatePasswordWithToken(s, p.form.password, readings, session, change).calls
      && r.store == UpdatePasswordWithToken(s, p.form.password, readings, session, change).state
      && r.page.errors == map[]
    ensures r.page.success <==> p.success || (FormValid(p.form) && HasToken(p) && HasSession(session) && change.Changed?)
  {
    var errors := ValidateForm(p.form);
    var validated := p.(errors := errors);
    if errors != map[] then PageStep(validated, s, [])
    else if !HasToken(p) then PageStep(validated.(errors := map["general" := NoTokenOnSubmit]), s, [])
    else
      var run := UpdatePasswordWithToken(s, p.form.password, readings, session, change);
      var page := if run.reply.Success? then validated.(success := true) else validated;
      PageStep(page, run.state, run.calls)
  }

  /** From a fresh page, the password flow reaches the service only after the mount effect
      found a token and the user typed a valid, confirmed password. */
  lemma SubmitNeedsTokenFromFragment(s: StoreState, hash: string, password: string, readings: StampReadings, session: SessionRead, change: PasswordChange)
    requires |password| >= 6
    ensures var mounted := ExtractToken(InitialPage, s, hash);
      var typed := HandleInputChange(mounted.page, mounted.store, PasswordField, password);
      var confirmed := HandleInputChange(typed.page, typed.store, ConfirmField, password);
      var submitted := HandleSubmit(confirmed.page, confirmed.store, readings, session, change);
      var token := AccessTokenOf(hash);
      submitted.calls != [] <==> token.Some? && token.value != ""
  {
  }
}

=== FILE: results.dfy ===
/** Option and Result values: `null`-or-value answers, and the `{ success, data | error }`
    replies the user store hands back to the pages. */
module Results {

  /** A value that may be absent (JavaScript `null`). */
  datatype Option<+T> = None | Some(value: T)

  /** `{ success: true, data }` or `{ success: false, error }`. */
  datatype Result<+T, +E> = Success(value: T) | Failure(error: E)
}

=== FILE: store.dfy ===
/** The user store: the cached user and profile, the loading/error/initialised flags, the
    preferences and the cached lists, with the operations that read and change them.

    Every call to the remote auth/database/storage service is recorded as a `Call`, and the
    service's answer to it is a parameter. Each operation is therefore a function from the
    state and the answers to the new state, the reply handed to the page, and the calls made. */
module Store {
  import opened Results
  import opened JsValues
  import opened Profiles

  /** The preferences the store starts with and persists. */
  datatype Preferences = Preferences(
    newsletterSubscribed: bool,
    orderNotifications: bool,
    theme: string,
    currency: string,
    language: string)

  const DefaultPreferences := Preferences(false, true, "auto", "INR", "en")

  datatype StoreState = StoreState(
    user: Option<AuthUser>,
    profile: Option<Obj>,
    isLoading: bool,
    isInitialized: bool,
    error: Option<string>,
    preferences: Preferences,
    orderHistory: seq<Obj>,
    wishlist: seq<Obj>,
    recentlyViewed: seq<Obj>)

  const InitialState := StoreState(None, None, false, false, None, DefaultPreferences, [], [], [])

  /** The error object a service call answers with. */
  datatype GatewayError = GatewayError(message: string)

  /** The answer to a write whose returned data the store does not use. */
  datatype Status = Ok | Err(err: GatewayError)

  /** The answer to a `.maybeSingle()` read: a row, no row, or an error. */
  datatype Read = Row(row: Obj) | NoRow | ReadError(err: GatewayError)

  /** The answer to a `.single()` read, where a missing row is itself an error. */
  type SingleRead = Result<Obj, GatewayError>

  /** A session of the auth service; `user` is absent when the session carries none. */
  datatype Session = Session(user: Option<AuthUser>)

  /** The answer to `auth.getSession()`. */
  datatype SessionRead = SessionError(err: GatewayError) | NoSession | Active(session: Session)

  /** The calls the store makes to the remote service. */
  datatype Call =
    | GetSession
    | GetUser
    | ReadView(id: string)
    | ReadBase(id: string)
    | UpsertBase(row: Obj)
    | UpdateBase(id: string, changes: Obj)
    | UpdateView(id: string, changes: Obj)
    | SignOutCall
    | VerifyOtp(tokenHash: string)
    | UpdatePassword(password: string)
    | SetSession(accessToken: string, refreshToken: string)
    | RefreshSession
    | UploadObject(key: string)
    | PublicUrl(key: string)

  /** One run of an operation: the new state, the reply, and the calls made, in order. */
  datatype Run<T> = Run(state: StoreState, reply: Result<T, string>, calls: seq<Call>)

  /** One run of an operation that replies nothing. */
  datatype Effect = Effect(state: StoreState, calls: seq<Call>)

  /** `error.message || fallback`. */
  function MessageOr(e: GatewayError, fallback: string): string {
    if e.message != "" then e.message else fallback
  }

  const NotAuthenticated := "User not authenticated"

  /** The invariant of the store's state: a cached profile belongs to a cached user. */
  predicate ProfileNeedsUser(s: StoreState) {
    s.profile.Some? ==> s.user.Some?
  }

  /** `t` differs from `s` at most in the cached profile and the error. */
  ghost predicate OnlyProfileOrError(s: StoreState, t: StoreState) {
    t == s.(profile := t.profile, error := t.error)
  }

  /** `clearError`: the error becomes null and nothing else changes. */
  function ClearError(s: StoreState): (t: StoreState)
    ensures t.error.None?
    ensures OnlyProfileOrError(s, t) && t.profile == s.profile
  {
    s.(error := None)
  }

  /** The row a `.maybeSingle()` read delivered, null for no row. */
  function RowOrNull(r: Read): Option<Obj> {
    if r.Row? then Some(r.row) else None
  }

  /** The answers `loadProfile` may receive, in the order it asks: the profile view, the auth
      user, the upsert of the base row, the view again, and the base table. */
  datatype LoadAnswers = LoadAnswers(view: Read, authUser: Option<AuthUser>, upsert: Status, reread: Read, base: Read)

  /** The user id `loadProfile` works on: `overrideUserId || currentUser?.id`, "" for none. */
  function LoadTarget(s: StoreState, overrideUserId: string): string {
    if overrideUserId != "" then overrideUserId else if s.user.Some? then s.user.value.id else ""
  }

  /** `loadProfile(overrideUserId)`: read the profile view; when it has no row or errs, upsert a
      base row built from the auth user, read the view again, and fall back to the base table.
      Whatever was found is normalised and cached; an upsert or base-table error fails. */
  function LoadProfile(s: StoreState, overrideUserId: string, a: LoadAnswers): (run: Run<Option<Obj>>)
    ensures OnlyProfileOrError(s, run.state)
    ensures LoadTarget(s, overrideUserId) == "" ==> run == Run(s, Failure("No user id"), [])
    ensures run.reply.Success? ==> run.state.profile == run.reply.value && run.state.error == s.error
    ensures run.reply.Failure? ==> run.state.profile == s.profile
    ensures run.reply.Failure? && LoadTarget(s, overrideUserId) != "" ==> run.state.error == Some(run.reply.error)
    ensures var id := LoadTarget(s, overrideUserId);
      id != "" && a.view.Row? ==> run == Run(s.(profile := NormalizeProfile(Some(a.view.row))), Success(NormalizeProfile(Some(a.view.row))), [ReadView(id)])
    ensures var id := LoadTarget(s, overrideUserId);
      id != "" && !a.view.Row? ==> |run.calls| >= 3 && run.calls[..3] == [ReadView(id), GetUser, UpsertBase(FallbackRow(id, a.authUser))]
    ensures run.reply.Success? && run.reply.value.None? ==>
      !a.view.Row? && a.upsert.Ok? && !a.reread.Row? && a.base.NoRow?
    ensures var id := LoadTarget(s, overrideUserId);
      id != "" && !a.view.Row? && a.upsert.Err? ==>
        run.reply == Failure(a.upsert.err.message) && |run.calls| == 3
    ensures var id := LoadTarget(s, overrideUserId);
      id != "" && !a.view.Row? && a.upsert.Ok? && a.reread.Row? ==>
        run.reply == Success(NormalizeProfile(Some(a.reread.row)))
        && run.calls == [ReadView(id), GetUser, UpsertBase(FallbackRow(id, a.authUser)), ReadView(id)]
    ensures var id := LoadTarget(s, overrideUserId);
      id != "" && !a.view.Row? && a.upsert.Ok? && !a.reread.Row? ==>
        && run.calls == [ReadView(id), GetUser, UpsertBase(FallbackRow(id, a.authUser)), ReadView(id), ReadBase(id)]
        && (a.base.ReadError? ==> run.reply == Failure(a.base.err.message))
        && (!a.base.ReadError? ==> run.reply == Success(NormalizeProfile(RowOrNull(a.base))))
    ensures ProfileNeedsUser(s) && (overrideUserId == "" || s.user.Some?) ==> ProfileNeedsUser(run.state)
  {
    var id := LoadTarget(s, overrideUserId);
    if id == "" then Run(s, Failure("No user id"), [])
    else if a.view.Row? then
      var p := NormalizeProfile(Some(a.view.row));
      Run(s.(profile := p), Success(p), [ReadView(id)])
    else
      var created := [ReadView(id), GetUser, UpsertBase(FallbackRow(id, a.authUser))];
      if a.upsert.Err? then
        Run(s.(error := Some(a.upsert.err.message)), Failure(a.upsert.err.message), created)
      else if a.reread.Row? then
        var p := NormalizeProfile(Some(a.reread.row));
        Run(s.(profile := p), Success(p), created + [ReadView(id)])
      else if a.base.ReadError? then
        Run(s.(error := Some(a.base.err.message)), Failure(a.base.err.message), created + [ReadView(id), ReadBase(id)])
      else
        var p := NormalizeProfile(RowOrNull(a.base));
        Run(s.(profile := p), Success(p), created + [ReadView(id), ReadBase(id)])
  }

  /** `initialize`: fetch the session and, when it carries a user, cache the user and load the
      profile. It always ends initialised and not loading, also after a session error. It does
      not itself skip when already initialised. */
  function Initialize(s: StoreState, session: SessionRead, load: LoadAnswers): (e: Effect)
    ensures e.state.isInitialized && !e.state.isLoading
    ensures |e.calls| >= 1 && e.calls[0] == GetSession
    ensures e.state.preferences == s.preferences && e.state.orderHistory == s.orderHistory
    ensures e.state.wishlist == s.wishlist && e.state.recentlyViewed == s.recentlyViewed
    ensures session.SessionError? ==>
      e.state.user == s.user && e.state.profile == s.profile && e.state.error == Some(session.err.message) && e.calls == [GetSession]
    ensures session.Active? && session.session.user.Some? ==> e.state.user == session.session.user
    ensures session.Active? && session.session.user.Some? ==>
      var u := session.session.user.value;
      var loaded := LoadProfile(s.(isLoading := true, error := None, user := Some(u)), u.id, load);
      e.calls == [GetSession] + loaded.calls && e.state.profile == loaded.state.profile && e.state.error == loaded.state.error
    ensures !(session.Active? && session.session.user.Some?) ==>
      e.state.user == s.user && e.state.profile == s.profile && e.calls == [GetSession]
    ensures !session.SessionError? && !(session.Active? && session.session.user.Some?) ==> e.state.error == None
    ensures ProfileNeedsUser(s) ==> ProfileNeedsUser(e.state)
  {
    var s1 := s.(isLoading := true, error := None);
    var e1 :=
      match session
      case SessionError(err) => Effect(s1.(error := Some(err.message)), [GetSession])
      case NoSession => Effect(s1, [GetSession])
      case Active(Session(None)) => Effect(s1, [GetSession])
      case Active(Session(Some(u))) =>
        var run := LoadProfile(s1.(user := Some(u)), u.id, load);
        Effect(run.state, [GetSession] + run.calls);
    Effect(e1.state.(isLoading := false, isInitialized := true), e1.calls)
  }

  /** `signOut`: on success the user, the profile and the cached lists are cleared; on failure
      nothing but the error changes. Preferences are kept either way. */
  function SignOut(s: StoreState, answer: Status): (run: Run<()>)
    ensures run.calls == [SignOutCall]
    ensures !run.state.isLoading && run.state.isInitialized == s.isInitialized
    ensures run.state.preferences == s.preferences
    ensures answer.Ok? ==> run.reply.Success? && run.state.error == None
    ensures answer.Ok? ==> run.state.user.None? && run.state.profile.None?
    ensures answer.Ok? ==> run.state.orderHistory == [] && run.state.wishlist == [] && run.state.recentlyViewed == []
    ensures answer.Err? ==> run.reply == Failure(MessageOr(answer.err, "Failed to sign out"))
    ensures answer.Err? ==> run.state == s.(isLoading := false, error := Some(run.reply.error))
    ensures ProfileNeedsUser(s) ==> ProfileNeedsUser(run.state)
  {
    var s1 := s.(isLoading := true, error := None);
    var run :=
      match answer
      case Ok => Run(s1.(user := None, profile := None, orderHistory := [], wishlist := [], recentlyViewed := []), Success(()), [SignOutCall])
      case Err(err) =>
        var message := MessageOr(err, "Failed to sign out");
        Run(s1.(error := Some(message)), Failure(message), [SignOutCall]);
    run.(state := run.state.(isLoading := false))
  }

  /** `updateProfile(updates)`: without a user it fails before any call; otherwise it writes
      `UpdatePayload(updates)` to the user's base row, reads the view back, and caches the
      normalised row. */
  function UpdateProfile(s: StoreState, updates: Obj, iso: string, write: Status, view: SingleRead): (run: Run<Obj>)
    ensures !run.state.isLoading
    ensures OnlyProfileOrError(s.(isLoading := false), run.state)
    ensures s.user.None? ==> run.reply == Failure(NotAuthenticated) && run.calls == []
    ensures s.user.Some? ==> |run.calls| >= 1 && run.calls[0] == UpdateBase(s.user.value.id, UpdatePayload(updates, iso))
    ensures run.reply.Success? ==>
      view.Success? && run.state.profile == Some(run.reply.value) && Some(run.reply.value) == NormalizeProfile(Some(view.value))
    ensures run.reply.Success? ==> run.state.error == None
    ensures run.reply.Failure? ==> run.state.profile == s.profile && run.state.error == Some(run.reply.error)
    ensures s.user.Some? && write.Ok? && view.Success? ==>
      run.reply == Success(NormalizeProfile(Some(view.value)).value)
      && run.calls == [UpdateBase(s.user.value.id, UpdatePayload(updates, iso)), ReadView(s.user.value.id)]
    ensures s.user.Some? && write.Err? ==>
      run.reply == Failure(MessageOr(write.err, "Failed to update profile"))
      && run.calls == [UpdateBase(s.user.value.id, UpdatePayload(updates, iso))]
    ensures s.user.Some? && write.Ok? && view.Failure? ==>
      run.reply == Failure(MessageOr(view.error, "Failed to update profile"))
      && run.calls == [UpdateBase(s.user.value.id, UpdatePayload(updates, iso)), ReadView(s.user.value.id)]
    ensures ProfileNeedsUser(s) ==> ProfileNeedsUser(run.state)
  {
    var s1 := s.(isLoading := true, error := None);
    var run :=
      if s1.user.None? then Run(s1.(error := Some(NotAuthenticated)), Failure(NotAuthenticated), [])
      else
        var id := s1.user.value.id;
        var written := [UpdateBase(id, UpdatePayload(updates, iso))];
        if write.Err? then
          var message := MessageOr(write.err, "Failed to update profile");
          Run(s1.(error := Some(message)), Failure(message), written)
        else
          match view
          case Failure(err) =>
            var message := MessageOr(err, "Failed to update profile");
            Run(s1.(error := Some(message)), Failure(message), written + [ReadView(id)])
          case Success(row) =>
            var p := NormalizeProfile(Some(row)).value;
            Run(s1.(profile := Some(p)), Success(p), written + [ReadView(id)]);
    run.(state := run.state.(isLoading := false))
  }

  /** `refreshProfile`: re-read the user's profile from the view, or from the base table when the
      view errs, and cache it normalised. A view answer with no row clears the cached profile.
      The error field is never touched. */
  function RefreshProfile(s: StoreState, view: Read, base: Read): (run: Run<Option<Obj>>)
    ensures run.state == s.(profile := run.state.profile)
    ensures s.user.None? ==> run == Run(s, Failure("No user logged in"), [])
    ensures s.user.Some? ==> |run.calls| >= 1 && run.calls[0] == ReadView(s.user.value.id)
    ensures run.reply.Success? ==> run.state.profile == run.reply.value
    ensures run.reply.Failure? ==> run.state.profile == s.profile
    ensures s.user.Some? && !view.ReadError? ==> run.calls == [ReadView(s.user.value.id)]
    ensures s.user.Some? && view.Row? ==> run.reply == Success(NormalizeProfile(Some(view.row)))
    ensures s.user.Some? && view.NoRow? ==> run.reply == Success(None) && run.state.profile.None?
    ensures s.user.Some? && view.ReadError? ==>
      run.calls == [ReadView(s.user.value.id), ReadBase(s.user.value.id)]
      && (base.ReadError? ==> run.reply == Failure(base.err.message))
      && (!base.ReadError? ==> run.reply == Success(NormalizeProfile(RowOrNull(base))))
    ensures ProfileNeedsUser(s) ==> ProfileNeedsUser(run.state)
  {
    if s.user.None? then Run(s, Failure("No user logged in"), [])
    else
      var id := s.user.value.id;
      if view.ReadError? then
        if base.ReadError? then Run(s, Failure(base.err.message), [ReadView(id), ReadBase(id)])
        else
          var p := NormalizeProfile(RowOrNull(base));
          Run(s.(profile := p), Success(p), [ReadView(id), ReadBase(id)])
      else
        var p := NormalizeProfile(RowOrNull(view));
        Run(s.(profile := p), Success(p), [ReadView(id)])
  }

  /** `isAdmin`: `profile?.is_admin || false`. */
  function IsAdmin(s: StoreState): (r: Value)
    ensures Truthy(r) <==> s.profile.Some? && Truthy(Get(s.profile.value, "is_admin"))
    ensures Truthy(r) ==> r == Get(s.profile.value, "is_admin")
    ensures !Truthy(r) ==> r == Bool(false)
  {
    if s.profile.None? then Bool(false) else Or(Get(s.profile.value, "is_admin"), Bool(false))
  }

  /** The part of the state that survives a restart of the page. */
  datatype Persisted = Persisted(user: Option<AuthUser>, profile: Option<Obj>, preferences: Preferences, recentlyViewed: seq<Obj>)

  /** The persisted snapshot of a state: user, profile, preferences and recently viewed items. */
  function Snapshot(s: StoreState): Persisted {
    Persisted(s.user, s.profile, s.preferences, s.recentlyViewed)
  }

  /** Two states persist alike exactly when they agree on user, profile, preferences and recently
      viewed items: the flags, the error, the order history and the wishlist are not stored. */
  lemma SnapshotKeeps(s: StoreState, t: StoreState)
    ensures Snapshot(s) == Snapshot(t) <==>
      s.user == t.user && s.profile == t.profile && s.preferences == t.preferences && s.recentlyViewed == t.recentlyViewed
  {
  }

  /** After a successful sign-out, the persisted snapshot keeps only the preferences. */
  lemma SignOutSnapshot(s: StoreState)
    ensures Snapshot(SignOut(s, Ok).state) == Persisted(None, None, s.preferences, [])
  {
  }

  /** The store starts out satisfying its invariant, uninitialised and with default preferences. */
  lemma InitialStateFacts()
    ensures ProfileNeedsUser(InitialState)
    ensures !InitialState.isInitialized && InitialState.preferences == DefaultPreferences
  {
  }
}

=== FILE: text.dfy ===
/** The `String.prototype` operations the store and the pages use, on `seq<char>`: `split` on
    one character, `includes`, `startsWith`, `substring`/`slice`, `toLowerCase` (ASCII letters
    only) and the decimal rendering of a non-negative number. `Find` (the first occurrence of a
    character) and `Join` (the inverse of `Split`) are the definitions these are stated with. */
module Text {

  /** Index of the first `c` in `s`, or `|s|` when `c` does not occur. */
  function Find(s: string, c: char): (r: nat)
    ensures r <= |s|
    ensures r < |s| ==> s[r] == c
    ensures forall j | 0 <= j < r :: s[j] != c
    ensures r == |s| <==> c !in s
    decreases |s|
  {
    if |s| == 0 then 0
    else if s[0] == c then 0
    else
      var r := Find(s[1..], c);
      assert forall j | 1 <= j < 1 + r :: s[j] == s[1..][j - 1];
      1 + r
  }

  /** In `a + [c] + b` with no `c` in `a`, the first `c` is the one after `a`. */
  lemma FindAfter(a: string, c: char, b: string)
    requires c !in a
    ensures Find(a + [c] + b, c) == |a|
    ensures (a + [c] + b)[..|a|] == a && (a + [c] + b)[|a| + 1..] == b
  {
    var s := a + [c] + b;
    assert s[|a|] == c;
    forall j | 0 <= j < |a| ensures s[j] != c {
      assert s[j] == a[j];
    }
  }

  /** `s.split(c)` for a one-character separator: the pieces between the occurrences of `c`. */
  function Split(s: string, c: char): (parts: seq<string>)
    ensures |parts| >= 1
    ensures forall i | 0 <= i < |parts| :: c !in parts[i]
    decreases |s|
  {
    var i := Find(s, c);
    if i == |s| then [s]
    else
      assert c !in s[..i] by {
        forall j | 0 <= j < i ensures s[..i][j] != c { }
      }
      [s[..i]] + Split(s[i + 1..], c)
  }

  /** The pieces put back together with `c` between them: the inverse of `Split`. */
  function Join(parts: seq<string>, c: char): string
    requires |parts| >= 1
    decreases |parts|
  {
    if |parts| == 1 then parts[0] else parts[0] + [c] + Join(parts[1..], c)
  }

  /** Joining the pieces of a split gives back the string. */
  lemma {:induction false} JoinSplit(s: string, c: char)
    ensures Join(Split(s, c), c) == s
    decreases |s|
  {
    var i := Find(s, c);
    if i < |s| {
      var tail := s[i + 1..];
      assert Split(s, c) == [s[..i]] + Split(tail, c);
      JoinCons(s[..i], Split(tail, c), c);
      JoinSplit(tail, c);
      SliceAround(s, i);
    } else {
      assert Split(s, c) == [s];
    }
  }

  /** A string is the text before index `i`, the character there, and the text after. */
  lemma SliceAround(s: string, i: nat)
    requires i < |s|
    ensures s == s[..i] + [s[i]] + s[i + 1..]
  {
  }

  /** Joining a first piece in front of at least one more. */
  lemma JoinCons(p: string, rest: seq<string>, c: char)
    requires |rest| >= 1
    ensures Join([p] + rest, c) == p + [c] + Join(rest, c)
  {
    assert ([p] + rest)[1..] == rest;
  }

  /** Splitting a join of separator-free pieces gives back the pieces. */
  lemma {:induction false} SplitJoin(parts: seq<string>, c: char)
    requires |parts| >= 1
    requires forall i | 0 <= i < |parts| :: c !in parts[i]
    ensures Split(Join(parts, c), c) == parts
    decreases |parts|
  {
    if |parts| > 1 {
      var p, rest := parts[0], Join(parts[1..], c);
      var s := p + [c] + rest;
      assert s == Join(parts, c);
      FindAfter(p, c, rest);
      assert Split(s, c) == [p] + Split(rest, c);
      SplitJoin(parts[1..], c);
      assert parts == [p] + parts[1..];
    } else {
      assert Find(parts[0], c) == |parts[0]|;
    }
  }

  /** A join of two or more pieces ends with the separator followed by the last piece. */
  lemma {:induction false} JoinLast(parts: seq<string>, c: char)
    requires |parts| >= 2
    ensures Join(parts, c) == Join(parts[..|parts| - 1], c) + [c] + parts[|parts| - 1]
    decreases |parts|
  {
    if |parts| > 2 {
      JoinLast(parts[1..], c);
      assert parts[1..][..|parts| - 2] == parts[..|parts| - 1][1..];
      assert parts[..|parts| - 1][0] == parts[0];
    }
  }

  /** The first piece of a split is the text before the first separator. */
  lemma SplitFirst(s: string, c: char)
    ensures Split(s, c)[0] == s[..Find(s, c)]
  {
  }

  /** With a separator present, the second piece is the text between the first separator and the
      next one (or the end). */
  lemma SplitSecond(s: string, c: char)
    requires c in s
    ensures var rest := s[Find(s, c) + 1..];
      |Split(s, c)| >= 2 && Split(s, c)[1] == rest[..Find(rest, c)]
  {
    var rest := s[Find(s, c) + 1..];
    assert Split(s, c) == [s[..Find(s, c)]] + Split(rest, c);
    SplitFirst(rest, c);
  }

  /** A string without the separator splits into itself alone. */
  lemma SplitWithout(s: string, c: char)
    requires c !in s
    ensures Split(s, c) == [s]
  {
  }

  /** A string with the separator splits into two or more pieces, the last after a separator. */
  lemma SplitWith(s: string, c: char)
    requires c in s
    ensures var parts := Split(s, c);
      |parts| >= 2 && s == Join(parts[..|parts| - 1], c) + [c] + parts[|parts| - 1]
  {
    var parts := Split(s, c);
    JoinSplit(s, c);
    JoinLast(parts, c);
  }

  /** The last piece of a split is the text after the last separator, or the whole string
      when there is none. */
  lemma SplitLast(s: string, c: char)
    ensures var parts := Split(s, c);
      var last := parts[|parts| - 1];
      && |last| <= |s| && s[|s| - |last|..] == last
      && (c !in s ==> last == s)
      && (c in s ==> |last| < |s| && s[|s| - |last| - 1] == c)
  {
    if c !in s {
      SplitWithout(s, c);
    } else {
      SplitWith(s, c);
      var parts := Split(s, c);
      var last := parts[|parts| - 1];
      var front := Join(parts[..|parts| - 1], c);
      assert s == front + [c] + last;
      assert s[|s| - |last|..] == last;
      assert s[|s| - |last| - 1] == c;
    }
  }

  /** A character other than the separator that no piece contains is absent from the join. */
  lemma {:induction false} JoinExcludes(parts: seq<string>, c: char, x: char)
    requires |parts| >= 1 && x != c
    requires forall i | 0 <= i < |parts| :: x !in parts[i]
    ensures x !in Join(parts, c)
    decreases |parts|
  {
    if |parts| > 1 {
      JoinExcludes(parts[1..], c, x);
      assert x !in parts[0] + [c];
    }
  }

  /** `pat` occurs in `s` starting at index `i`. */
  ghost predicate OccursAt(s: string, pat: string, i: int) {
    0 <= i && i + |pat| <= |s| && s[i..i + |pat|] == pat
  }

  /** `s.includes(pat)`. */
  function Includes(s: string, pat: string): bool
    decreases |s|
  {
    if |pat| > |s| then false
    else if s[..|pat|] == pat then true
    else Includes(s[1..], pat)
  }

  /** `Includes` holds exactly when `pat` occurs somewhere in `s`. */
  lemma {:induction false} IncludesIffOccurs(s: string, pat: string)
    ensures Includes(s, pat) <==> exists i :: OccursAt(s, pat, i)
    decreases |s|
  {
    if |pat| > |s| {
      forall i | 0 <= i ensures !OccursAt(s, pat, i) { }
    } else if s[..|pat|] == pat {
      assert OccursAt(s, pat, 0);
    } else {
      IncludesIffOccurs(s[1..], pat);
      if i :| OccursAt(s[1..], pat, i) {
        assert s[1..][i..i + |pat|] == s[i + 1..i + 1 + |pat|];
        assert OccursAt(s, pat, i + 1);
      }
      if i :| OccursAt(s, pat, i) {
        assert i != 0;
        assert s[1..][i - 1..i - 1 + |pat|] == s[i..i + |pat|];
        assert OccursAt(s[1..], pat, i - 1);
      }
    }
  }

  /** A string includes any prefix of itself. */
  lemma IncludesPrefix(pat: string, b: string)
    ensures Includes(pat + b, pat)
  {
    assert (pat + b)[..|pat|] == pat;
  }

  /** A string includes any suffix of itself. */
  lemma IncludesSuffix(a: string, pat: string)
    ensures Includes(a + pat, pat)
  {
    IncludesIffOccurs(a + pat, pat);
    assert (a + pat)[|a|..|a| + |pat|] == pat;
    assert OccursAt(a + pat, pat, |a|);
  }

  /** If a string includes `pat`, it includes `pat` without its first character. */
  lemma IncludesTail(s: string, pat: string)
    requires |pat| > 0 && Includes(s, pat)
    ensures Includes(s, pat[1..])
  {
    IncludesIffOccurs(s, pat);
    IncludesIffOccurs(s, pat[1..]);
    var i :| OccursAt(s, pat, i);
    assert s[i + 1..i + 1 + |pat[1..]|] == s[i..i + |pat|][1..];
    assert OccursAt(s, pat[1..], i + 1);
  }

  /** A string that lacks the first character of `pat` does not include `pat`. */
  lemma ExcludesWithoutFirst(s: string, pat: string)
    requires |pat| > 0 && pat[0] !in s
    ensures !Includes(s, pat)
  {
    IncludesIffOccurs(s, pat);
    forall i | 0 <= i ensures !OccursAt(s, pat, i) {
      if i + |pat| <= |s| {
        assert s[i..i + |pat|][0] == s[i];
      }
    }
  }

  /** `s.startsWith(prefix)`. */
  predicate StartsWith(s: string, prefix: string) {
    |prefix| <= |s| && s[..|prefix|] == prefix
  }

  /** `s.substring(1)`: the string without its first character; the empty string stays empty. */
  function DropFirst(s: string): string {
    if |s| == 0 then "" else s[1..]
  }

  /** `s.substring(0, n)` and `s.slice(0, n)`: at most the first `n` characters. */
  function Prefix(s: string, n: nat): string {
    if n <= |s| then s[..n] else s
  }

  /** `toLowerCase` on one character; only the ASCII letters A-Z change. */
  function LowerChar(ch: char): char {
    if 'A' <= ch <= 'Z' then (ch as int + 32) as char else ch
  }

  /** `s.toLowerCase()` on ASCII letters. */
  function Lower(s: string): string {
    seq(|s|, i requires 0 <= i < |s| => LowerChar(s[i]))
  }

  predicate IsDigit(ch: char) {
    '0' <= ch <= '9'
  }

  function DigitChar(d: int): char
    requires 0 <= d < 10
  {
    ('0' as int + d) as char
  }

  /** `${n}` for a non-negative integer: its decimal digits, most significant first. */
  function Decimal(n: nat): (s: string)
    ensures |s| >= 1
    ensures forall i | 0 <= i < |s| :: IsDigit(s[i])
    ensures n >= 1 ==> s[0] != '0'
    ensures |s| == 1 || s[0] != '0'
    decreases n
  {
    if n < 10 then [DigitChar(n)] else Decimal(n / 10) + [DigitChar(n % 10)]
  }

  /** The number a string of decimal digits denotes. */
  function DecimalValue(s: string): nat
    requires forall i | 0 <= i < |s| :: IsDigit(s[i])
    decreases |s|
  {
    if |s| == 0 then 0
    else
      assert IsDigit(s[|s| - 1]);
      DecimalValue(s[..|s| - 1]) * 10 + (s[|s| - 1] as int - '0' as int)
  }

  /** Reading back the decimal rendering of `n` gives `n`. */
  lemma {:induction false} DecimalRoundTrip(n: nat)
    ensures DecimalValue(Decimal(n)) == n
    decreases n
  {
    if n >= 10 {
      DecimalRoundTrip(n / 10);
      var s := Decimal(n);
      assert s[..|s| - 1] == Decimal(n / 10);
    }
  }

  /** Distinct numbers render as distinct decimal strings. */
  lemma DecimalInjective(a: nat, b: nat)
    requires a != b
    ensures Decimal(a) != Decimal(b)
  {
    DecimalRoundTrip(a);
    DecimalRoundTrip(b);
  }
}
